=== FILE: README.md ===
# Grade-sheet and new-post reconciliation, modelled in Dafny

The system watches two web sites and tells its owner when something new
appears there.

- **ctthust.py** scrapes two tables of course marks. The first is the official
  course-marks table, whose rows carry a term, course id, course name, credit,
  class id, mid score and end score. The second is the provisional class-grade
  table, whose rows carry a class id, course name, weight, mid score and end
  score. It merges both into a Google Sheet of grade rows. A row is a list of
  text cells addressed through the fixed column map `COLS` (term 0, course
  name 1, course id 2, credit 3, mid score 4, end score 5, weight 6).
  - An official item goes to the first row indexed under its course id whose
    term text equals the item's.
  - A provisional item goes to the row indexed under its course name with the
    largest positive integer term. The first such row wins on ties.
  - An item with no matching row is appended as a new empty row.
  - Merging writes every non-empty value of the item except the course id. It
    reports a change when some cell's text differs.
  - The sheet is written back, and the changed rows are sent as a
    notification, only when at least one merge changed a row.
- **hieutv.py** scrapes the syllabus posts of a course page. Any post whose id
  is not in the list stored last time is new. The ids of all scraped posts
  replace the stored list. A notification with the new posts is sent when
  there is at least one.

The model is a set of pure functions. All text is `string`. The sheet is a
`seq` of rows. Because Python shares list objects, a "record" in the source is
named here by its row position.

- `results.dfy`: `Option` and `Result`.
- `numerals.dfy`: Python's `int(text)`, the one numeric conversion the
  reconciliation performs.
- `records.dfy`: the column map, padding, `set_record_attribute`,
  `set_record` and `convert_item_to_dict`.
- `indexing.dfy`: the `record_dict` table built at the start of each phase.
- `matching.dfy`: the exact-term match and the best-term match.
- `reconcile.dfy`: the two phases and the whole `check` body, including its
  error exits.
- `run_facts.dfy`: properties of whole runs, covering reruns, two
  course-marks items in one run, and an example of a mid score arriving for a
  stored course.
- `seen_items.dfy`: the new-post check of hieutv.py.

## Model

| member | source | states |
|---|---|---|
| Records.Column | ctthust.py:22-30 | the column map: every attribute sits in one of the first 7 columns |
| Records.AttributeAt | ctthust.py:22-30 | the column map read backwards: each of the 7 columns holds exactly one attribute |
| Records.Pad | ctthust.py:94-95 | a padded row has max(len, n) cells and reads the same as before in every column |
| Records.Get | ctthust.py:116-119 | reading a cell: the cell's text when the row reaches that column, and the empty text past the row's end |
| Records.Value | ctthust.py:104-109 | `item.get(name, '')`: each key an item carries reads as the item's own text (the course name and both scores for either kind, term, course id and credit for a course-marks item, the weight for a provisional one); a course-marks item has no weight and a provisional item has no term, course id or credit, so those read as empty |
| Records.SetAttribute | ctthust.py:92-100 | the row is padded to the attribute's column even for an empty value; an empty value writes nothing and reports no change; otherwise the cell takes the value and the change is reported exactly when the old text differs; cells of other attributes and beyond the map are untouched |
| Records.SetAttributes | ctthust.py:102-110 | writing a list of distinct attributes one after another: every listed attribute shows the item's non-empty value, every other cell keeps its text, the row only grows (to full width once the weight column is written), and a change is reported iff some listed attribute differed |
| Records.SetRecord | ctthust.py:102-110 | the merge stated cell by cell: the row is padded to 7 cells, each attribute other than the course id shows the item's non-empty value and keeps its old text otherwise, cells beyond column 6 are kept, and a change is reported iff the row disagreed with the item on some merged attribute |
| Records.SequentialMerge | ctthust.py:102-110 | the six writes in the source's order (name, term, credit, mid, end, weight) end in exactly the row and flag SetRecord states |
| Records.MergeOrderIsMerged | ctthust.py:104-109 | the six writes touch distinct attributes, and they are exactly the attributes other than the course id |
| Records.SetRecordShape | ctthust.py:102-110 | a merge never shortens a row, always leaves at least 7 cells, never alters the course id, and only pads when it reports no change |
| Records.SetRecordReads | ctthust.py:102-110 | any column j reads after a merge as the item's value when j is a merged attribute with a non-empty value, and as before otherwise |
| Records.AgreeingMergeReadsSame | ctthust.py:96-100 | merging an item the row already agrees with leaves every column reading as before |
| Records.UnchangedIsPadding | ctthust.py:96-110 | a merge that reports no change only appends empty cells |
| Records.MergedAgrees | ctthust.py:102-110 | after a merge the row agrees with the item |
| Records.RemergeIsIdentity | ctthust.py:102-110 | merging into a full-width row that agrees with the item returns the row unchanged and reports no change |
| Records.SetRecordIdempotent | ctthust.py:92-110 | merging the same item twice: the second merge returns the same row and reports no change |
| Records.ToItem | ctthust.py:112-120 | the mapping has an entry for every key of the column map, namely that column's text, or empty past the row's end |
| Records.ToItemIgnoresPadding | ctthust.py:112-120 | rows that differ only by padding map to the same dictionary |
| Records.ToItemAfterMerge | ctthust.py:102-120 | the mapping of a merged row shows each non-empty merged value of the item and keeps the course id and every attribute the item leaves empty |
| Numerals.ParseShow | ctthust.py:222 | `int(str(n)) == n` for every integer n |
| Numerals.BlankIsNotInteger | ctthust.py:222 | `int` rejects an empty or all-whitespace cell |
| Numerals.ParseInt | ctthust.py:222 | `int` of a cell: the text is accepted iff, once surrounding whitespace is dropped, it is non-empty and is an optional '+' or '-' followed by digits with single underscores only between two digits; the value is then the digits' decimal value with the separators dropped, negated exactly when the sign is '-' |
| Numerals.Unsigned | ctthust.py:222 | dropping the sign keeps a suffix of the text, and is one character shorter exactly when the text starts with '+' or '-' |
| Numerals.SignedNumeral | ctthust.py:222 | for every well-formed numeral d with no sign, a '+' or a '-': `int` returns the decimal value of d's digits, negated for '-'; leading zeros and separators included |
| Numerals.TightNumeral | ctthust.py:222 | a signed numeral has no surrounding whitespace to drop, and its unsigned part is the numeral itself |
| Numerals.LeadingZeros | ctthust.py:222 | leading zeros do not change a digit string's value |
| Numerals.ZerosValue | ctthust.py:222 | a string of zeros has value 0 |
| Numerals.PlusSignExample | ctthust.py:222 | `int('+5') == 5` |
| Numerals.PaddedMinusExample | ctthust.py:222 | `int(' -12 ') == -12` |
| Numerals.MinusTwelve | ctthust.py:222 | `int('-12') == -12` |
| Numerals.LeadingZerosExample | ctthust.py:222 | `int('007') == 7` |
| Numerals.SeparatorExample | ctthust.py:222 | `int('1_000') == 1000` |
| Numerals.RejectedExamples | ctthust.py:222 | `int` raises on a doubled separator ('1__0'), a decimal point ('2020.1') and letters ('HK1') |
| Numerals.RejectedTight | ctthust.py:222 | `int` raises on unpadded, unsigned text holding a character that is neither a digit nor an underscore |
| Numerals.GroupedDigits | ctthust.py:222 | a text with a character that is neither a digit nor an underscore is not a well-formed numeral |
| Numerals.SpaceAroundIgnored | ctthust.py:222 | whitespace on either side of the text does not change what `int` makes of it |
| Numerals.SeparatorIsNotSpace | ctthust.py:222 | the information separators U+001C to U+001F are not whitespace to `int`: `int('\x1c5')` raises |
| Numerals.GroupedEndsInDigit | ctthust.py:222 | a numeral `int` accepts ends in a digit |
| Indexing.IndexBy | ctthust.py:188-193 | the table built over a column lists under each key exactly the rows holding that key, in increasing sheet order, and every row is listed |
| Indexing.IndexByKeysOnly | ctthust.py:188-193 | the table depends only on the key column |
| Indexing.IndexStable | ctthust.py:195-208 | a table stays exact over a sheet that grows, or whose rows lengthen, as long as the covered rows keep their key cells |
| Indexing.ListedIff | ctthust.py:188-193 | a covered row is listed under a key iff its key cell holds that key |
| Indexing.ListOrder | ctthust.py:189-193 | within a key's list, positions follow sheet order |
| Matching.FirstWithTerm | ctthust.py:199-202 | returns the position of the first candidate whose term text equals the item's, or none when no candidate's does |
| Matching.ExactMatch | ctthust.py:197-202 | a match is listed under the item's course id and has the item's term |
| Matching.ExactMatchIsFirst | ctthust.py:195-205 | over an exact table of the first n rows, the match is the first such row in sheet order with the item's course id and term; there is no match iff no such row exists |
| Matching.BestFrom | ctthust.py:220-224 | the scan fails iff some candidate's term is not an integer; otherwise it returns none when every term is at most 0, and else the first candidate holding the largest term, which is positive |
| Matching.BestTerm | ctthust.py:220-224 | the scan started from max_term 0 and no record has the same meaning as BestFrom |
| Matching.BestMatch | ctthust.py:217-224 | a match is listed under the item's course name and is a row of the sheet |
| Matching.BestMatchIsFirstMax | ctthust.py:216-227 | over an exact name table: aborting iff some row of that name has a non-integer term; otherwise none iff every such term is at most 0; otherwise the first row of that name with the largest term |
| Matching.NamedRowsListed | ctthust.py:211-219 | every row of the name among the covered rows is in the table's list for that name |
| Matching.BestFoundIsFirstMax | ctthust.py:218-224 | the candidate the best-term scan picks is the first row of that name with the largest term |
| Reconcile.PlaceEvolves | ctthust.py:203-208 | merging into the matched row or an appended row only appends rows, keeps every course id, pads unreported rows, and grows the sheet by exactly one row iff there was no match |
| Reconcile.Place | ctthust.py:196-208 | placing an item grows the sheet by one row exactly when there is no match, and adds at most the placed row to the change list |
| Reconcile.PlaceSpec | ctthust.py:203-208 | the placed row, the match or a new last row, becomes the merge of the item into it (into an empty row when appended), every other row is unchanged, and the row is reported exactly when the merge changed it |
| Reconcile.Phase1Step | ctthust.py:195-208 | one official item keeps the phase-1 invariants: all rows have a course id cell, and the course-id table built before the phase stays exact |
| Reconcile.Phase1 | ctthust.py:195-208 | phase 1 keeps that table exact over the rows it was built from, only appends rows (at most one per item), never alters a course id, and pads every row it does not report |
| Reconcile.Phase2Step | ctthust.py:216-230 | a name match is a covered row holding the item's name, and one provisional item keeps the phase-2 invariants |
| Reconcile.Phase2 | ctthust.py:216-230 | phase 2 either aborts with a non-integer term, or keeps the name table exact, only appends rows (at most one per item), never alters a course id, and pads every row it does not report |
| Reconcile.FirstShort | ctthust.py:189-190 | the first stored row with no course id cell, which is where building the table fails |
| Reconcile.Views | ctthust.py:239-240 | one mapping per changed row, in change order, each equal to that row read back |
| Reconcile.Check | ctthust.py:184-241 | no values is an error; a stored row without a course id cell is an error naming such a row; on success the sheet grew by at most one row per item, never shortens a stored row and keeps its course id, appended rows have an empty course id, unreported stored rows are only padded, and the sheet is written and the changed rows notified iff some merge changed a row |
| Reconcile.Reconciled | ctthust.py:188-230 | the two phases abort only on a non-integer term, and on completion the sheet has between its stored length and one more row per item |
| Reconcile.ReconciledEvolves | ctthust.py:195-230 | the two phases over a well-formed sheet either abort with a non-integer term, or end in a run that only appended rows, kept every course id, padded every unreported row, and grew by at most one row per item |
| Reconcile.CheckReconciled | ctthust.py:184-241 | a run over a well-formed sheet is phase 1, then phase 2 over a name table rebuilt from phase 1's sheet, then the write-and-notify decision |
| Reconcile.Complete | ctthust.py:233-241 | the finished outcome keeps the stored rows' course ids and never shortens them, and is written and notified iff some merge changed a row |
| Reconcile.Finish | ctthust.py:233-241 | the outcome keeps the run's sheet and change list; the sheet is written, whole, and the notification sent with the changed rows read back, exactly when the change list is non-empty |
| Reconcile.FinishFacts | ctthust.py:233-241 | writing and notifying happen iff the change list is non-empty; the write carries the whole sheet and the notification carries each changed row read back |
| RunFacts.CheckFullOnly | ctthust.py:184-208 | with only official items, a run never aborts on a well-formed sheet and equals the merge into the item's exact match |
| RunFacts.CheckTempOnly | ctthust.py:210-230 | with only provisional items, a run aborts iff the best-term match does, and otherwise equals the merge into that match |
| RunFacts.MissAppends | ctthust.py:203-208 | an official item with a course name, whose course id no row carries, is appended as one new reported row, leaving the stored rows untouched and the new row's course id empty |
| RunFacts.AppendedRow | ctthust.py:203-208 | the appended row is the merge of the item into an empty row, and it is reported whenever the item has a name |
| RunFacts.RerunAppendsAgain | ctthust.py:195-208 | for an item with a non-empty course id, rerunning over the sheet that run produced appends the same item a second time and reports it again |
| RunFacts.TempMissAppends | ctthust.py:216-230 | a provisional item whose name no row carries is appended with its name and an empty term |
| RunFacts.TempMissBreaksRerun | ctthust.py:216-224 | rerunning over that sheet aborts with a non-integer term |
| RunFacts.FirstExactUnique | ctthust.py:199-202 | the first exact row is unique |
| RunFacts.ExactHitMerges | ctthust.py:195-208 | an official item with an exact row is merged into the first such row |
| RunFacts.MergedStaysFirst | ctthust.py:195-206 | after the merge that row is still the first exact row |
| RunFacts.RerunAfterHitIsQuiet | ctthust.py:184-241 | rerunning with the same item over the sheet a matched run produced changes nothing, writes nothing and sends nothing |
| RunFacts.HitStore | ctthust.py:195-208 | after a matched run the sheet is the stored sheet with only the matched row merged, and that row is still the first exact row |
| RunFacts.QuietRemerge | ctthust.py:206-235 | merging an item into a row that already went through the same merge yields no change, no write and no notification |
| RunFacts.Phase1Two | ctthust.py:195-208 | over two official items, the first is placed and the second is looked up in the same table, over the sheet the first left behind |
| RunFacts.CheckFullTwo | ctthust.py:184-241 | a run with two official items and no provisional ones never aborts on a well-formed sheet and ends in those two placements |
| RunFacts.RepeatedMissAppendsTwice | ctthust.py:195-208 | an official item with a course name that misses, given twice in one run, is appended twice as two identical reported rows, even when the first appended row carries its course id and term |
| RunFacts.TwoMisses | ctthust.py:203-208 | placing the same missing item, which has a course name, twice appends two copies of its row and reports both |
| RunFacts.MissOnce | ctthust.py:197-208 | an item with a course name and no exact row among the tabled rows is appended and reported, and the tabled rows still hold no exact row for it |
| RunFacts.SameRowReportedTwice | ctthust.py:195-208 | two official items with the same course id and term merge into the same row, which is reported twice when both merges change it |
| RunFacts.TwoHits | ctthust.py:195-208 | the second of two such items finds the row the first merged into, and the change list holds that row twice |
| RunFacts.FirstHit | ctthust.py:195-208 | the first item merges into row i, which is reported because the merge changes it, and stays the first exact row for the second |
| RunFacts.SecondHit | ctthust.py:195-208 | the second item merges into the same row and, as that merge changes it, reports it again |
| RunFacts.HitOnce | ctthust.py:197-208 | an item whose first exact row is i merges into row i |
| RunFacts.SameKeysStayFirst | ctthust.py:199-202 | after a merge, the row is still the first exact row for any item with the same course id and term |
| RunFacts.MidScoreArrives | ctthust.py:184-241 | one example, a mid score arriving for the one stored Algebra row: the row takes the score and is the one changed row, and both the sheet write and the notification carry it |
| RunFacts.IdenticalItemIsQuiet | ctthust.py:233-235 | for example, an official item for the one stored Algebra row, whose values that row already holds, changes nothing, writes nothing and sends nothing; the general claim is Records.AgreeingMergeReadsSame with RunFacts.QuietRemerge |
| SeenItems.StoredIds | hieutv.py:87-91 | a missing document is an error, and a document without an `items` field reads as an empty list |
| SeenItems.NewItems | hieutv.py:124 | every returned post was scraped and has an unseen id, and every scraped post with an unseen id is returned |
| SeenItems.NewItemsInOrder | hieutv.py:124 | the new posts keep their scrape order: they are a subsequence of the scraped posts |
| SeenItems.NewItemsAppend | hieutv.py:124 | filtering a concatenation filters each part separately |
| SeenItems.NothingNewToSeen | hieutv.py:124 | no post is new when every scraped id was seen |
| SeenItems.AllNewToNothing | hieutv.py:124 | every post is new against an empty list |
| SeenItems.Ids | hieutv.py:125 | one id per scraped post, in scrape order |
| SeenItems.Check | hieutv.py:123-132 | a missing document fails the run before anything is persisted; otherwise the ids of all scraped posts are persisted and replace the old list, and a notification is sent iff some scraped id was unseen, carrying exactly the unseen posts in order |
| SeenItems.RerunFindsNothing | hieutv.py:123-128 | rerunning with the same scrape over the persisted ids persists the same list and sends nothing |
| SeenItems.MissingFieldMeansAllNew | hieutv.py:123-130 | when the document has no `items` field, every scraped post is new and all of them are notified |

## Behaviour as written

Several of these properties are consequences of how the code is written that
its authors may not have meant: they hold of the code as it stands. The rerun
properties feed the sheet one run writes straight back in as the next run's
`values`, that is, they assume the sheet returns what was written (see the
sheet round-trip line under "Left out").

- **Reruns are not always quiet.** A merge never writes the course id
  (ctthust.py:104-109). So an official item that found no row is appended with
  an empty course id cell. Assuming the sheet returns what was written, an
  item with a non-empty course id misses again on the next run and is
  appended again (`RunFacts.RerunAppendsAgain`).
- **A missed provisional item breaks the next run.** Such an item is appended
  with an empty term. Assuming the sheet returns what was written, the next
  run's best-term scan calls `int('')` on that row and raises
  (`RunFacts.TempMissBreaksRerun`).
- **Reruns are quiet when the item found its row.** Assuming the sheet returns
  what was written, rerunning with an official item that found its row does
  nothing (`RunFacts.RerunAfterHitIsQuiet`).
- **Appended rows are not in this phase's table.** Each table is built once,
  before its phase. A row appended during a phase is invisible to later items
  of the same phase, even one whose course id and term it carries
  (`RunFacts.RepeatedMissAppendsTwice`). Rows appended in phase 1 are visible
  to phase 2, whose table is built afterwards.
- **A row can be reported twice.** The change list is a list, not a set. Two
  items that merge into the same row and both change it put that row in the
  list twice, so the notification shows it twice
  (`RunFacts.SameRowReportedTwice`).
- **Best-term ties and negative terms.** The best-term scan starts from 0 and
  replaces its pick only on a strictly larger term. Ties keep the earliest row.
  A course whose listed terms are all 0 or negative counts as unmatched. The
  scan still raises on any non-integer term of that name, even after a match
  was found.
- **A short stored row aborts the run.** The course id sits in column 2, so a
  stored row of fewer than 3 cells makes building the course-id table raise
  (ctthust.py:190) before any item is looked at; `Reconcile.Check` reports
  it as `ShortRow`, naming the first such row.

## Left out

- Browser automation, login and scraping (the `extract_*` functions and the
  Selenium calls): the scraped tables are parameters. Items have exactly the
  keys each extractor produces.
- The provisional weight `str(1 - float(...))` is floating-point arithmetic
  done during extraction, so the weight is an opaque string.
- Google Sheets and Firestore I/O: the sheet's `values` and the stored
  document are parameters, and the write and the notification are results.
  The `last_update` timestamp that hieutv.py stores next to the ids is a
  clock reading and is left out.
- The e-mail templates, sending, logging, the `run_check` wrappers and app.py
  schedule and report runs. They are not part of the reconciliation.
- Numeric sheet cells: with the FORMULA render option the sheet may return
  numbers. The model treats every cell as text, so `str()` is the identity.
- RunFacts.RerunAppendsAgain, RunFacts.TempMissBreaksRerun,
  RunFacts.RerunAfterHitIsQuiet, RunFacts.IdenticalItemIsQuiet: these take the
  sheet the model writes, or a row holding an item's own texts, as the next
  run's `values`, so they assume the sheet returns what was written. The
  program does not guarantee that. It writes with `USER_ENTERED`
  (ctthust.py:84), so the sheet parses numeric text: a mid score "8.0" comes
  back as the number 8, whose `str` is "8", and the row changes again on every
  run. It reads with `values.get` (ctthust.py:89), which drops trailing empty
  cells: an appended row whose credit and scores are empty can come back
  shorter than 3 cells and abort the next run at ctthust.py:190. Neither
  conversion is modelled.
- Numerals.ParseInt, Numerals.SignedNumeral, Numerals.ParseShow: non-ASCII
  Unicode decimal digits, which Python's `int` also accepts, are not modelled.
  Only ASCII digits with single underscores are.
  The length limit on decimal conversion is not modelled either. Python 3.11
  and later, and the 3.7.14, 3.8.14, 3.9.14 and 3.10.7 releases, raise
  ValueError when the text has more than 4300 digits (`int_max_str_digits`).
  So a longer term cell aborts the run at ctthust.py:222, and `int(str(n))`
  fails for such large n. The source does not pin a Python version, so the
  model accepts numerals of any length.
- The class id is scraped but never read by the reconciliation. Post headers
  and URLs are carried through but never inspected.
- Dictionary key order in the notification mapping: a Dafny `map` has none.
- Reconcile.Check: the error cases name the first failing row, but the model
  does not state the partial sheet a Python exception would leave behind. An
  aborted run writes nothing and notifies nothing.

=== FILE: indexing.dfy ===
/**
 The lookup table the reconciliation builds from the sheet at the start of each
 phase (ctthust.py `record_dict`): key text to the rows holding it, in sheet
 order. Rows are named by their position in the sheet, which stands for the
 row object the table holds.
 */
module Indexing {
  import opened Records

  type Index = map<string, seq<nat>>

  /** Every one of the first n rows has a cell in column col. */
  predicate Keyed(s: Store, n: nat, col: nat)
  {
    n <= |s| && forall i | 0 <= i < n :: col < |s[i]|
  }

  /** l lists, in strictly increasing order, rows below n whose column col holds key. */
  ghost predicate Lists(l: seq<nat>, s: Store, n: nat, col: nat, key: string)
    requires n <= |s|
  {
    && (forall p | 0 <= p < |l| :: l[p] < n && col < |s[l[p]]| && s[l[p]][col] == key)
    && (forall p, q | 0 <= p < q < |l| :: l[p] < l[q])
  }

  /** idx is exactly the table of column col over the first n rows of s. */
  ghost predicate IndexOf(idx: Index, s: Store, n: nat, col: nat)
  {
    && Keyed(s, n, col)
    && (forall k | k in idx :: |idx[k]| > 0 && Lists(idx[k], s, n, col, k))
    && (forall i | 0 <= i < n :: s[i][col] in idx && i in idx[s[i][col]])
  }

  /**
   Builds the table over column col: rows are visited in sheet order and each
   is appended to the list of its key.
   */
  function IndexBy(s: Store, col: nat): (idx: Index)
    requires Keyed(s, |s|, col)
    ensures IndexOf(idx, s, |s|, col)
    decreases |s|
  {
    if |s| == 0 then map[]
    else
      var n := |s| - 1;
      var prev := IndexBy(s[..n], col);
      var idx := Enter(prev, s[n][col], n);
      assert IndexOf(idx, s, |s|, col) by {
        IndexExtend(prev, s, col);
      }
      idx
  }

  /** The table with row n appended to the list of key. */
  function Enter(idx: Index, key: string, n: nat): Index
  {
    idx[key := (if key in idx then idx[key] else []) + [n]]
  }

  lemma IndexExtend(prev: Index, s: Store, col: nat)
    requires 0 < |s| && Keyed(s, |s|, col)
    requires IndexOf(prev, s[..|s| - 1], |s| - 1, col)
    ensures
      var n := |s| - 1;
      var key := s[n][col];
      IndexOf(Enter(prev, key, n), s, |s|, col)
  {
    ExtendLists(prev, s, col);
    ExtendCovers(prev, s, col);
  }

  /** Every list of the extended table is a sorted list of rows holding its key. */
  lemma ExtendLists(prev: Index, s: Store, col: nat)
    requires 0 < |s| && Keyed(s, |s|, col)
    requires IndexOf(prev, s[..|s| - 1], |s| - 1, col)
    ensures
      var idx := Enter(prev, s[|s| - 1][col], |s| - 1);
      forall k | k in idx :: |idx[k]| > 0 && Lists(idx[k], s, |s|, col, k)
  {
    var n := |s| - 1;
    var key := s[n][col];
    var idx := Enter(prev, key, n);
    forall k | k in idx
      ensures |idx[k]| > 0 && Lists(idx[k], s, |s|, col, k)
    {
      if k == key {
        if key in prev {
          ListsWiden(prev[key], s, col, key);
        } else {
          ListsWiden([], s, col, key);
        }
      } else {
        ListsWiden(prev[k], s, col, k);
      }
    }
  }

  /** A list over the rows before the last one stays valid over all rows, and may take the last one. */
  lemma ListsWiden(l: seq<nat>, s: Store, col: nat, key: string)
    requires 0 < |s| && Keyed(s, |s|, col)
    requires Lists(l, s[..|s| - 1], |s| - 1, col, key)
    ensures Lists(l, s, |s|, col, key)
    ensures s[|s| - 1][col] == key ==> Lists(l + [|s| - 1], s, |s|, col, key)
  {
    var n := |s| - 1;
    assert forall p | 0 <= p < |l| :: s[..n][l[p]] == s[l[p]];
  }

  /** Every row, the last one included, is listed under its key in the extended table. */
  lemma ExtendCovers(prev: Index, s: Store, col: nat)
    requires 0 < |s| && Keyed(s, |s|, col)
    requires IndexOf(prev, s[..|s| - 1], |s| - 1, col)
    ensures
      var idx := Enter(prev, s[|s| - 1][col], |s| - 1);
      forall i | 0 <= i < |s| :: s[i][col] in idx && i in idx[s[i][col]]
  {
    var n := |s| - 1;
    var key := s[n][col];
    var idx := Enter(prev, key, n);
    forall i | 0 <= i < |s|
      ensures s[i][col] in idx && i in idx[s[i][col]]
    {
      if i < n {
        assert s[..n][i] == s[i];
        assert s[i][col] in prev && i in prev[s[i][col]];
      }
    }
  }

  /**
   The table stays exact while the rows it covers keep their key cells, however
   the sheet grows or the rows lengthen.
   */
  lemma IndexStable(idx: Index, s: Store, t: Store, n: nat, col: nat)
    requires IndexOf(idx, s, n, col)
    requires n <= |t|
    requires forall i | 0 <= i < n :: col < |t[i]| && t[i][col] == s[i][col]
    ensures IndexOf(idx, t, n, col)
  {
    forall k | k in idx
      ensures Lists(idx[k], t, n, col, k)
    {
      assert Lists(idx[k], s, n, col, k);
    }
  }

  /** The table depends on nothing but the key cells. */
  lemma {:induction false} IndexByKeysOnly(s: Store, t: Store, col: nat)
    requires Keyed(s, |s|, col) && Keyed(t, |t|, col) && |s| == |t|
    requires forall i | 0 <= i < |s| :: s[i][col] == t[i][col]
    ensures IndexBy(s, col) == IndexBy(t, col)
    decreases |s|
  {
    if |s| > 0 {
      var n := |s| - 1;
      IndexByKeysOnly(s[..n], t[..n], col);
    }
  }

  /** A row below n is listed under key exactly when its key cell holds key. */
  lemma ListedIff(idx: Index, s: Store, n: nat, col: nat, key: string, i: nat)
    requires IndexOf(idx, s, n, col) && i < n
    ensures (key in idx && i in idx[key]) <==> s[i][col] == key
  {
    if key in idx && i in idx[key] {
      var p :| 0 <= p < |idx[key]| && idx[key][p] == i;
      assert Lists(idx[key], s, n, col, key);
    }
  }

  /** In a listed key, an earlier row sits at an earlier position. */
  lemma ListOrder(idx: Index, s: Store, n: nat, col: nat, key: string, p: nat, q: nat)
    requires IndexOf(idx, s, n, col) && key in idx
    requires p < |idx[key]| && q < |idx[key]|
    ensures idx[key][p] < idx[key][q] <==> p < q
  {
    assert Lists(idx[key], s, n, col, key);
  }
}

=== FILE: matching.dfy ===
/**
 The two ways the reconciliation finds the sheet row for a scraped item
 (ctthust.py `check`): by course id and exact term for the course-marks table,
 and by course name and largest term for the provisional table.
 */
module Matching {
  import opened Results
  import opened Records
  import opened Numerals
  import opened Indexing

  /**
   * Ways a reconciliation run aborts. This is the one error type of the whole
   * check. It is declared here because matching is the lowest layer that can
   * fail (`NotAnInteger`); `NoValues` and `ShortRow` are raised by
   * `Reconcile.Check`, before any matching starts.
   */
  datatype Error =
    | NoValues                                 // the sheet returned no `values` at all
    | ShortRow(row: nat)                       // a stored row has no course id cell
    | NotAnInteger(row: nat, text: string)     // a candidate's term is not an integer numeral

  /** Every candidate names a row of s that has a term cell. */
  predicate Readable(s: Store, cands: seq<nat>)
  {
    forall p | 0 <= p < |cands| :: cands[p] < |s| && Column(Term) < |s[cands[p]]|
  }

  predicate TableReadable(s: Store, idx: Index)
  {
    forall k | k in idx :: Readable(s, idx[k])
  }

  lemma IndexReadable(idx: Index, s: Store, n: nat, col: nat)
    requires IndexOf(idx, s, n, col)
    ensures TableReadable(s, idx)
  {
    forall k | k in idx
      ensures Readable(s, idx[k])
    {
      assert Lists(idx[k], s, n, col, k);
    }
  }

  // ---------------------------------------------------------------------------
  // Exact match: the course-marks table
  // ---------------------------------------------------------------------------

  /** The position of the first candidate whose term text equals term. */
  function FirstWithTerm(s: Store, cands: seq<nat>, term: string): (r: Option<nat>)
    requires Readable(s, cands)
    ensures r.Some? ==> r.value < |cands| && s[cands[r.value]][Column(Term)] == term
    ensures r.Some? ==> forall q | 0 <= q < r.value :: s[cands[q]][Column(Term)] != term
    ensures r.None? ==> forall q | 0 <= q < |cands| :: s[cands[q]][Column(Term)] != term
    decreases |cands|
  {
    if |cands| == 0 then None
    else if s[cands[0]][Column(Term)] == term then Some(0)
    else
      match FirstWithTerm(s, cands[1..], term)
      case Some(p) => Some(p + 1)
      case None => None
  }

  /**
   The row a course-marks item merges into: among the rows the table lists
   under the item's course id, the first whose term equals the item's.
   */
  function ExactMatch(s: Store, idx: Index, f: FullItem): (r: Option<nat>)
    requires TableReadable(s, idx)
    ensures r.Some? ==> f.courseId in idx && r.value in idx[f.courseId]
    ensures r.Some? ==> r.value < |s| && s[r.value][Column(Term)] == f.term
  {
    if f.courseId in idx then
      match FirstWithTerm(s, idx[f.courseId], f.term)
      case Some(p) => Some(idx[f.courseId][p])
      case None => None
    else None
  }

  /** The row carries the item's course id and term. */
  ghost predicate Exact(rec: Record, f: FullItem)
  {
    Get(rec, Column(CourseId)) == f.courseId && Get(rec, Column(Term)) == f.term
  }

  /** Row i is the first of the first n rows carrying the item's course id and term. */
  ghost predicate FirstExactAt(s: Store, n: nat, f: FullItem, i: nat)
  {
    i < n <= |s| && Exact(s[i], f) && forall j | 0 <= j < i :: !Exact(s[j], f)
  }

  /**
   Over an exact table of the first n rows, the exact match is the first of
   those rows, in sheet order, with the item's course id and term; no row at
   or beyond n is ever chosen, and there is no match exactly when no such row
   exists.
   */
  lemma ExactMatchIsFirst(s: Store, idx: Index, n: nat, f: FullItem)
    requires IndexOf(idx, s, n, Column(CourseId))
    ensures TableReadable(s, idx)
    ensures ExactMatch(s, idx, f).None? <==> forall j | 0 <= j < n :: !Exact(s[j], f)
    ensures ExactMatch(s, idx, f).Some? ==> FirstExactAt(s, n, f, ExactMatch(s, idx, f).value)
  {
    IndexReadable(idx, s, n, Column(CourseId));
    var key := f.courseId;
    var r := ExactMatch(s, idx, f);
    if key in idx {
      var l := idx[key];
      assert Lists(l, s, n, Column(CourseId), key);
      var first := FirstWithTerm(s, l, f.term);
      if first.None? {
        forall j | 0 <= j < n
          ensures !Exact(s[j], f)
        {
          ListedIff(idx, s, n, Column(CourseId), key, j);
          if s[j][Column(CourseId)] == key {
            var q :| 0 <= q < |l| && l[q] == j;
          }
        }
      } else {
        var p := first.value;
        var i := l[p];
        forall j | 0 <= j < i
          ensures !Exact(s[j], f)
        {
          ListedIff(idx, s, n, Column(CourseId), key, j);
          if s[j][Column(CourseId)] == key {
            var q :| 0 <= q < |l| && l[q] == j;
            ListOrder(idx, s, n, Column(CourseId), key, q, p);
          }
        }
      }
    } else {
      forall j | 0 <= j < n
        ensures !Exact(s[j], f)
      {
        ListedIff(idx, s, n, Column(CourseId), key, j);
      }
    }
  }

  // ---------------------------------------------------------------------------
  // Best-term match: the provisional table
  // ---------------------------------------------------------------------------

  /** The integer a row's term cell holds, when it holds one. */
  function TermNumber(rec: Record): Option<int>
  {
    ParseInt(Get(rec, Column(Term)))
  }

  /** The first p candidates have integer terms. */
  ghost predicate Numeric(s: Store, cands: seq<nat>, p: nat)
    requires Readable(s, cands) && p <= |cands|
  {
    forall q | 0 <= q < p :: TermNumber(s[cands[q]]).Some?
  }

  /** Candidate p holds the largest term, which is positive, and is the first to hold it. */
  ghost predicate BestAt(s: Store, cands: seq<nat>, p: nat)
    requires Readable(s, cands)
  {
    && p < |cands|
    && Numeric(s, cands, |cands|)
    && TermNumber(s[cands[p]]).value > 0
    && (forall q | 0 <= q < |cands| :: TermNumber(s[cands[q]]).value <= TermNumber(s[cands[p]]).value)
    && (forall q | 0 <= q < p :: TermNumber(s[cands[q]]).value < TermNumber(s[cands[p]]).value)
  }

  /** What the scan knows after the first p candidates: `best` is the first strict maximum so far. */
  ghost predicate Scanned(s: Store, cands: seq<nat>, p: nat, best: Option<nat>, max: int)
    requires Readable(s, cands) && p <= |cands|
  {
    && Numeric(s, cands, p)
    && (best.None? ==> max == 0 && forall q | 0 <= q < p :: TermNumber(s[cands[q]]).value <= 0)
    && (best.Some? ==>
          && best.value < p
          && TermNumber(s[cands[best.value]]).value == max
          && max > 0
          && (forall q | 0 <= q < p :: TermNumber(s[cands[q]]).value <= max)
          && (forall q | 0 <= q < best.value :: TermNumber(s[cands[q]]).value < max))
  }

  /**
   The scan over the candidates from position p on: a candidate replaces the
   current best only when its term is strictly greater, starting from 0; a term
   that is not an integer aborts.
   */
  function BestFrom(s: Store, cands: seq<nat>, p: nat, best: Option<nat>, max: int): (r: Result<Option<nat>, Error>)
    requires Readable(s, cands) && p <= |cands|
    requires Scanned(s, cands, p, best, max)
    ensures r.Failure? <==> !Numeric(s, cands, |cands|)
    ensures r.Failure? ==> r.error.NotAnInteger?
    ensures r.Success? && r.value.None? ==> forall q | 0 <= q < |cands| :: TermNumber(s[cands[q]]).value <= 0
    ensures r.Success? && r.value.Some? ==> BestAt(s, cands, r.value.value)
    decreases |cands| - p
  {
    if p == |cands| then Success(best)
    else
      match TermNumber(s[cands[p]])
      case None => Failure(NotAnInteger(cands[p], s[cands[p]][Column(Term)]))
      case Some(v) =>
        ScanStep(s, cands, p, best, max, v);
        if v > max then BestFrom(s, cands, p + 1, Some(p), v)
        else BestFrom(s, cands, p + 1, best, max)
  }

  /** One more candidate with an integer term: it becomes the best only when strictly greater. */
  lemma ScanStep(s: Store, cands: seq<nat>, p: nat, best: Option<nat>, max: int, v: int)
    requires Readable(s, cands) && p < |cands|
    requires Scanned(s, cands, p, best, max)
    requires TermNumber(s[cands[p]]) == Some(v)
    ensures v > max ==> Scanned(s, cands, p + 1, Some(p), v)
    ensures v <= max ==> Scanned(s, cands, p + 1, best, max)
  {
    if v > max { NewBest(s, cands, p, best, max, v); } else { SameBest(s, cands, p, best, max, v); }
  }

  lemma NewBest(s: Store, cands: seq<nat>, p: nat, best: Option<nat>, max: int, v: int)
    requires Readable(s, cands) && p < |cands|
    requires Scanned(s, cands, p, best, max)
    requires TermNumber(s[cands[p]]) == Some(v) && v > max
    ensures Scanned(s, cands, p + 1, Some(p), v)
  {
    assert 0 <= max;
    forall q | 0 <= q < p
      ensures TermNumber(s[cands[q]]).Some? && TermNumber(s[cands[q]]).value < v
    {
      assert TermNumber(s[cands[q]]).value <= max;
    }
  }

  lemma SameBest(s: Store, cands: seq<nat>, p: nat, best: Option<nat>, max: int, v: int)
    requires Readable(s, cands) && p < |cands|
    requires Scanned(s, cands, p, best, max)
    requires TermNumber(s[cands[p]]) == Some(v) && v <= max
    ensures Scanned(s, cands, p + 1, best, max)
  {
  }

  /** The position of the candidate with the strictly largest positive term, first one on ties. */
  function BestTerm(s: Store, cands: seq<nat>): (r: Result<Option<nat>, Error>)
    requires Readable(s, cands)
    ensures r.Failure? <==> !Numeric(s, cands, |cands|)
    ensures r.Success? && r.value.None? ==> forall q | 0 <= q < |cands| :: TermNumber(s[cands[q]]).value <= 0
    ensures r.Success? && r.value.Some? ==> BestAt(s, cands, r.value.value)
  {
    BestFrom(s, cands, 0, None, 0)
  }

  /**
   The row a provisional item merges into: among the rows the table lists under
   the item's course name, the one BestTerm picks; none when the name is not
   listed or no listed term is positive.
   */
  function BestMatch(s: Store, idx: Index, name: string): (r: Result<Option<nat>, Error>)
    requires TableReadable(s, idx)
    ensures r.Success? && r.value.Some? ==> name in idx && r.value.value in idx[name] && r.value.value < |s|
  {
    if name in idx then
      match BestTerm(s, idx[name])
      case Failure(e) => Failure(e)
      case Success(None) => Success(None)
      case Success(Some(p)) => Success(Some(idx[name][p]))
    else Success(None)
  }

  /** The row's course name cell holds name. */
  ghost predicate Named(rec: Record, name: string)
  {
    Get(rec, Column(CourseName)) == name
  }

  /**
   Row i is, among the first n rows named name, the first with the largest
   term, and that term is positive.
   */
  ghost predicate FirstMaxAt(s: Store, n: nat, name: string, i: nat)
  {
    && i < n <= |s|
    && Named(s[i], name)
    && TermNumber(s[i]).Some? && TermNumber(s[i]).value > 0
    && (forall j | 0 <= j < n && Named(s[j], name) ::
          TermNumber(s[j]).Some? && TermNumber(s[j]).value <= TermNumber(s[i]).value)
    && (forall j | 0 <= j < i && Named(s[j], name) :: TermNumber(s[j]).value < TermNumber(s[i]).value)
  }

  /**
   Over an exact table of the first n rows by course name: the match aborts
   exactly when some row of that name has a term that is not an integer;
   otherwise it is the first row of that name with the largest positive term,
   or none when every such term is at most 0.
   */
  lemma BestMatchIsFirstMax(s: Store, idx: Index, n: nat, name: string)
    requires IndexOf(idx, s, n, Column(CourseName))
    ensures TableReadable(s, idx)
    ensures BestMatch(s, idx, name).Failure?
        <==> exists j | 0 <= j < n :: Named(s[j], name) && TermNumber(s[j]).None?
    ensures BestMatch(s, idx, name) == Success(None) ==>
        forall j | 0 <= j < n && Named(s[j], name) :: TermNumber(s[j]).Some? && TermNumber(s[j]).value <= 0
    ensures BestMatch(s, idx, name).Success? && BestMatch(s, idx, name).value.Some? ==>
        FirstMaxAt(s, n, name, BestMatch(s, idx, name).value.value)
  {
    IndexReadable(idx, s, n, Column(CourseName));
    if name in idx {
      var l := idx[name];
      var b := BestTerm(s, l);
      NamedRowsListed(s, idx, n, name);
      if b.Failure? {
        var q :| 0 <= q < |l| && TermNumber(s[l[q]]).None?;
        assert Named(s[l[q]], name);
      } else {
        assert forall q | 0 <= q < |l| :: TermNumber(s[l[q]]).Some?;
        if b.value.Some? {
          BestFoundIsFirstMax(s, idx, n, name, b.value.value);
        }
      }
    } else {
      forall j | 0 <= j < n
        ensures !Named(s[j], name)
      {
        ListedIff(idx, s, n, Column(CourseName), name, j);
      }
    }
  }

  /** Every one of the first n rows of that name sits somewhere in the table's list for it. */
  lemma NamedRowsListed(s: Store, idx: Index, n: nat, name: string)
    requires IndexOf(idx, s, n, Column(CourseName)) && name in idx
    ensures Lists(idx[name], s, n, Column(CourseName), name)
    ensures forall j | 0 <= j < n && Named(s[j], name) :: exists q :: 0 <= q < |idx[name]| && idx[name][q] == j
  {
    forall j | 0 <= j < n && Named(s[j], name)
      ensures exists q :: 0 <= q < |idx[name]| && idx[name][q] == j
    {
      ListedIff(idx, s, n, Column(CourseName), name, j);
    }
  }

  /** The best-term candidate p is the first row of that name with the largest term. */
  lemma BestFoundIsFirstMax(s: Store, idx: Index, n: nat, name: string, p: nat)
    requires IndexOf(idx, s, n, Column(CourseName)) && name in idx
    requires Readable(s, idx[name])
    requires BestAt(s, idx[name], p)
    ensures FirstMaxAt(s, n, name, idx[name][p])
  {
    var l := idx[name];
    NamedRowsListed(s, idx, n, name);
    forall j | 0 <= j < n && Named(s[j], name)
      ensures TermNumber(s[j]).Some? && TermNumber(s[j]).value <= TermNumber(s[l[p]]).value
    {
      var q :| 0 <= q < |l| && l[q] == j;
    }
    forall j | 0 <= j < l[p] && Named(s[j], name)
      ensures TermNumber(s[j]).value < TermNumber(s[l[p]]).value
    {
      var q :| 0 <= q < |l| && l[q] == j;
      ListOrder(idx, s, n, Column(CourseName), name, q, p);
    }
  }
}

=== FILE: numerals.dfy ===
/**
 Python's `int(text)` on a cell's text: the only numeric conversion the
 reconciliation performs (the best-term comparison in ctthust.py). Accepted
 form: optional surrounding whitespace, an optional sign, then decimal digits
 in which single underscores may separate two digits.
 */
module Numerals {
  import opened Results

  /**
   The characters `int()` ignores around a numeral. Below code point 127 these
   are only tab, line feed, vertical tab, form feed, carriage return and space:
   the information separators U+001C to U+001F, which `str.isspace` accepts,
   are not skipped. At or above 127 they are the characters `str.isspace`
   accepts, which `int()` turns into spaces before it parses.
   */
  predicate IsSpace(c: char)
  {
    var n := c as int;
    || (9 <= n <= 13) || n == 32 || n == 0x85 || n == 0xA0 || n == 0x1680
    || (0x2000 <= n <= 0x200A) || n == 0x2028 || n == 0x2029 || n == 0x202F
    || n == 0x205F || n == 0x3000
  }

  predicate IsDigit(c: char)
  {
    '0' <= c <= '9'
  }

  predicate AllDigits(d: string)
  {
    forall i | 0 <= i < |d| :: IsDigit(d[i])
  }

  function DigitValue(c: char): nat
    requires IsDigit(c)
  {
    (c as int) - ('0' as int)
  }

  function DigitChar(n: nat): (c: char)
    requires n < 10
    ensures IsDigit(c) && DigitValue(c) == n
  {
    ('0' as int + n) as char
  }

  /** Drops leading whitespace. */
  function TrimStart(s: string): (r: string)
    ensures |r| == 0 || !IsSpace(r[0])
    decreases |s|
  {
    if |s| > 0 && IsSpace(s[0]) then TrimStart(s[1..]) else s
  }

  /** Drops trailing whitespace. */
  function TrimEnd(s: string): (r: string)
    ensures |r| == 0 || !IsSpace(r[|r| - 1])
    decreases |s|
  {
    if |s| > 0 && IsSpace(s[|s| - 1]) then TrimEnd(s[..|s| - 1]) else s
  }

  function Strip(s: string): string
  {
    TrimEnd(TrimStart(s))
  }

  /** Decimal digits, where an underscore may stand only between two digits. */
  predicate Grouped(d: string)
    decreases |d|
  {
    && 0 < |d|
    && IsDigit(d[0])
    && (|d| == 1 || Grouped(d[1..]) || (d[1] == '_' && Grouped(d[2..])))
  }

  /** The digits of a numeral, separators removed. */
  function DigitsOf(d: string): (r: string)
    ensures AllDigits(r)
    decreases |d|
  {
    if |d| == 0 then ""
    else if IsDigit(d[0]) then [d[0]] + DigitsOf(d[1..])
    else DigitsOf(d[1..])
  }

  /** The value of a digit string, most significant digit first. */
  function DigitsValue(d: string): nat
    requires AllDigits(d)
    decreases |d|
  {
    if |d| == 0 then 0 else 10 * DigitsValue(d[..|d| - 1]) + DigitValue(d[|d| - 1])
  }

  function ParseUnsigned(d: string): (r: Option<nat>)
    ensures r.Some? <==> Grouped(d)
  {
    if Grouped(d) then Some(DigitsValue(DigitsOf(d))) else None
  }

  /** `int(s)`: None where Python raises ValueError. */
  function ParseInt(s: string): (r: Option<int>)
    ensures r.Some? <==> 0 < |Strip(s)| && Grouped(Unsigned(Strip(s)))
    ensures r.Some? ==> IsDigit(Strip(s)[|Strip(s)| - 1])
    ensures r.Some? ==>
      r.value == (if Strip(s)[0] == '-' then -1 else 1) * DigitsValue(DigitsOf(Unsigned(Strip(s))))
  {
    var t := Strip(s);
    if |t| == 0 then None
    else
      var d := Unsigned(t);
      match ParseUnsigned(d)
      case Some(n) =>
        GroupedEndsInDigit(d);
        assert d[|d| - 1] == t[|t| - 1];
        Some((if t[0] == '-' then -1 else 1) * n)
      case None => None
  }

  /** The signs `int()` accepts in front of the digits. */
  predicate IsSign(c: char)
  {
    c == '+' || c == '-'
  }

  /** The text after an optional leading sign. */
  function Unsigned(t: string): (d: string)
    ensures |d| <= |t| && d == t[|t| - |d|..]
    ensures 0 < |t| && IsSign(t[0]) <==> |d| == |t| - 1
  {
    if 0 < |t| && IsSign(t[0]) then t[1..] else t
  }

  /**
   An optional sign followed by digits, where single underscores may separate
   two digits, is the signed value of its digits; leading zeros and the
   separators carry no value.
   */
  lemma SignedNumeral(sign: string, d: string)
    requires sign == "" || sign == "+" || sign == "-"
    requires Grouped(d)
    ensures ParseInt(sign + d) == Some((if sign == "-" then -1 else 1) * DigitsValue(DigitsOf(d)))
  {
    TightNumeral(sign, d);
  }

  /** A sign followed by a numeral has no blanks to strip, and its unsigned part is the numeral. */
  lemma TightNumeral(sign: string, d: string)
    requires sign == "" || sign == "+" || sign == "-"
    requires Grouped(d)
    ensures Strip(sign + d) == sign + d
    ensures Unsigned(sign + d) == d
  {
    TightEnds(sign, d);
    StripTight(sign + d);
    SignDropped(sign, d);
  }

  lemma TightEnds(sign: string, d: string)
    requires sign == "" || sign == "+" || sign == "-"
    requires Grouped(d)
    ensures 0 < |sign + d| && !IsSpace((sign + d)[0]) && !IsSpace((sign + d)[|sign + d| - 1])
  {
    var t := sign + d;
    GroupedEndsInDigit(d);
    assert t[|t| - 1] == d[|d| - 1];
    if sign == "" { assert t[0] == d[0]; } else { assert t[0] == sign[0]; }
  }

  lemma SignDropped(sign: string, d: string)
    requires sign == "" || sign == "+" || sign == "-"
    requires 0 < |d| && IsDigit(d[0])
    ensures Unsigned(sign + d) == d
  {
    var t := sign + d;
    if sign == "" { assert t == d; } else { assert t[0] == sign[0] && t[1..] == d; }
  }

  /** Leading zeros do not change the value of a digit string. */
  lemma {:induction false} LeadingZeros(z: string, d: string)
    requires forall i | 0 <= i < |z| :: z[i] == '0'
    requires AllDigits(d)
    ensures AllDigits(z + d)
    ensures DigitsValue(z + d) == DigitsValue(d)
    decreases |d|
  {
    var t := z + d;
    assert forall i | 0 <= i < |t| :: IsDigit(t[i]) by {
      forall i | 0 <= i < |t|
        ensures IsDigit(t[i])
      {
        if i >= |z| { assert t[i] == d[i - |z|]; }
      }
    }
    if |d| == 0 {
      assert t == z;
      ZerosValue(z);
    } else {
      assert t[..|t| - 1] == z + d[..|d| - 1];
      LeadingZeros(z, d[..|d| - 1]);
    }
  }

  lemma {:induction false} ZerosValue(z: string)
    requires forall i | 0 <= i < |z| :: z[i] == '0'
    ensures AllDigits(z) && DigitsValue(z) == 0
    decreases |z|
  {
    if |z| > 0 {
      ZerosValue(z[..|z| - 1]);
    }
  }

  /** A plus sign is accepted: `int('+5') == 5`. */
  lemma PlusSignExample()
    ensures ParseInt("+5") == Some(5)
  {
    assert Grouped("5");
    SignedNumeral("+", "5");
    assert "+" + "5" == "+5";
    assert DigitsOf("5") == "5";
    assert DigitsValue("5") == 5;
  }

  /** Blanks around a negative numeral are ignored: `int(' -12 ') == -12`. */
  lemma PaddedMinusExample()
    ensures ParseInt(" -12 ") == Some(-12)
  {
    MinusTwelve();
    assert " " + "-12" + " " == " -12 ";
    SpaceAroundIgnored(" ", "-12", " ");
  }

  lemma MinusTwelve()
    ensures ParseInt("-12") == Some(-12)
  {
    TwelveGrouped();
    SignedNumeral("-", "12");
    assert "-" + "12" == "-12";
  }

  /** `12` is a well-formed numeral of value 12. */
  lemma TwelveGrouped()
    ensures Grouped("12") && DigitsOf("12") == "12" && DigitsValue("12") == 12
  {
    assert "12"[1..] == "2" && "12"[..1] == "1";
    assert Grouped("2");
    assert DigitsOf("2") == "2";
    assert DigitsValue("1") == 1;
  }

  /** Leading zeros carry no value: `int('007') == 7`. */
  lemma LeadingZerosExample()
    ensures ParseInt("007") == Some(7)
  {
    ZeroZeroSeven();
    SignedNumeral("", "007");
    assert "" + "007" == "007";
  }

  /** `007` is a well-formed numeral of value 7. */
  lemma ZeroZeroSeven()
    ensures Grouped("007") && DigitsOf("007") == "007" && DigitsValue("007") == 7
  {
    assert "007"[1..] == "07" && "07"[1..] == "7";
    assert Grouped("7") && Grouped("07");
    assert DigitsOf("7") == "7" && DigitsOf("07") == "07";
    assert "00" + "7" == "007";
    LeadingZeros("00", "7");
    assert DigitsValue("7") == 7;
  }

  /** A single separator between digits is dropped: `int('1_000') == 1000`. */
  lemma SeparatorExample()
    ensures ParseInt("1_000") == Some(1000)
  {
    ThousandGrouped();
    SignedNumeral("", "1_000");
    assert "" + "1_000" == "1_000";
    ThousandValue();
  }

  /** `1_000` is a well-formed numeral whose digits are `1000`. */
  lemma ThousandGrouped()
    ensures Grouped("1_000") && DigitsOf("1_000") == "1000"
  {
    assert Grouped("0") && Grouped("00") && Grouped("000");
    assert "1_000"[2..] == "000";
    assert "000"[1..] == "00" && "00"[1..] == "0";
    assert DigitsOf("0") == "0" && DigitsOf("00") == "00" && DigitsOf("000") == "000";
    assert "1_000"[1..] == "_000" && "_000"[1..] == "000";
    assert DigitsOf("_000") == "000";
  }

  lemma ThousandValue()
    ensures DigitsValue("1000") == 1000
  {
    assert "1000"[..3] == "100" && "100"[..2] == "10" && "10"[..1] == "1";
    assert DigitsValue("1") == 1;
    assert DigitsValue("10") == 10;
    assert DigitsValue("100") == 100;
  }

  /** Texts `int()` rejects: a doubled separator, a decimal point, a letter prefix. */
  lemma RejectedExamples()
    ensures ParseInt("1__0") == None
    ensures ParseInt("2020.1") == None
    ensures ParseInt("HK1") == None
  {
    StripTight("1__0");
    assert !Grouped("1__0") by { assert !Grouped("__0") && !Grouped("_0"); }
    assert "2020.1"[4] == '.';
    RejectedTight("2020.1");
    assert "HK1"[0] == 'H';
    RejectedTight("HK1");
  }

  /** Text with no blank ends and no sign that is not a numeral is rejected. */
  lemma RejectedTight(t: string)
    requires 0 < |t| && !IsSpace(t[0]) && !IsSpace(t[|t| - 1]) && !IsSign(t[0])
    requires exists i | 0 <= i < |t| :: !IsDigit(t[i]) && t[i] != '_'
    ensures ParseInt(t) == None
  {
    StripTight(t);
    var i :| 0 <= i < |t| && !IsDigit(t[i]) && t[i] != '_';
    GroupedDigits(t, i);
  }

  /** A numeral holds only digits and separators. */
  lemma {:induction false} GroupedDigits(d: string, i: nat)
    requires i < |d| && !IsDigit(d[i]) && d[i] != '_'
    ensures !Grouped(d)
    decreases |d|
  {
    if Grouped(d) && i > 0 {
      if Grouped(d[1..]) {
        GroupedDigits(d[1..], i - 1);
      } else {
        if i == 1 {
        } else {
          GroupedDigits(d[2..], i - 2);
        }
      }
    }
  }

  /** A numeral ends in a digit. */
  lemma {:induction false} GroupedEndsInDigit(d: string)
    requires Grouped(d)
    ensures IsDigit(d[|d| - 1])
    decreases |d|
  {
    if |d| > 1 {
      if Grouped(d[1..]) {
        GroupedEndsInDigit(d[1..]);
      } else {
        GroupedEndsInDigit(d[2..]);
      }
    }
  }

  /** Decimal rendering of a natural number, without separators. */
  function ShowNat(n: nat): (r: string)
    ensures 0 < |r| && AllDigits(r)
  {
    if n < 10 then [DigitChar(n)] else ShowNat(n / 10) + [DigitChar(n % 10)]
  }

  /** `str(n)` for an integer. */
  function Show(n: int): string
  {
    if n < 0 then "-" + ShowNat(-n) else ShowNat(n)
  }

  lemma {:induction false} ShowNatValue(n: nat)
    ensures DigitsValue(ShowNat(n)) == n
  {
    if n >= 10 {
      var d := ShowNat(n);
      assert d[..|d| - 1] == ShowNat(n / 10);
      ShowNatValue(n / 10);
    }
  }

  lemma {:induction false} DigitsAreGrouped(d: string)
    requires 0 < |d| && AllDigits(d)
    ensures Grouped(d)
  {
    if |d| > 1 {
      DigitsAreGrouped(d[1..]);
    }
  }

  lemma {:induction false} DigitsOfDigits(d: string)
    requires AllDigits(d)
    ensures DigitsOf(d) == d
  {
    if |d| > 0 {
      DigitsOfDigits(d[1..]);
    }
  }

  /** Text that neither starts nor ends with whitespace is its own strip. */
  lemma StripTight(s: string)
    requires 0 < |s| && !IsSpace(s[0]) && !IsSpace(s[|s| - 1])
    ensures Strip(s) == s
  {
  }

  lemma ParseShowNat(n: nat)
    ensures ParseUnsigned(ShowNat(n)) == Some(n)
  {
    var d := ShowNat(n);
    DigitsAreGrouped(d);
    DigitsOfDigits(d);
    ShowNatValue(n);
  }

  /** Every integer survives a trip through `str` and back through `int`. */
  lemma ParseShow(n: int)
    ensures ParseInt(Show(n)) == Some(n)
  {
    var sign := if n < 0 then "-" else "";
    var d := ShowNat(if n < 0 then -n else n);
    DigitsAreGrouped(d);
    DigitsOfDigits(d);
    ShowNatValue(if n < 0 then -n else n);
    SignedNumeral(sign, d);
    assert Show(n) == sign + d;
  }

  /** An empty or blank cell is not an integer: `int('')` raises. */
  lemma BlankIsNotInteger(s: string)
    requires forall i | 0 <= i < |s| :: IsSpace(s[i])
    ensures ParseInt(s) == None
  {
    BlankTrims(s);
  }

  /** `int()` ignores whitespace around the text: padding it with blanks on either side changes nothing. */
  lemma SpaceAroundIgnored(pre: string, s: string, post: string)
    requires forall i | 0 <= i < |pre| :: IsSpace(pre[i])
    requires forall i | 0 <= i < |post| :: IsSpace(post[i])
    ensures ParseInt(pre + s + post) == ParseInt(s)
  {
    assert pre + s + post == pre + (s + post);
    TrimStartBlank(pre, s + post);
    if exists i | 0 <= i < |s| :: !IsSpace(s[i]) {
      TrimStartInner(s, post);
      TrimEndBlank(TrimStart(s), post);
    } else {
      BlankTrims(s);
      BlankTrims(s + post);
    }
  }

  /** Information separators are not whitespace to `int()`: `int('\x1c5')` raises. */
  lemma SeparatorIsNotSpace()
    ensures ParseInt("\U{1c}5") == None
  {
    var s := "\U{1c}5";
    assert TrimStart(s) == s;
    assert TrimEnd(s) == s;
    assert !Grouped(s);
  }

  lemma {:induction false} TrimStartBlank(pre: string, s: string)
    requires forall i | 0 <= i < |pre| :: IsSpace(pre[i])
    ensures TrimStart(pre + s) == TrimStart(s)
    decreases |pre|
  {
    if |pre| > 0 {
      assert (pre + s)[1..] == pre[1..] + s;
      TrimStartBlank(pre[1..], s);
    } else {
      assert pre + s == s;
    }
  }

  lemma {:induction false} TrimEndBlank(s: string, post: string)
    requires forall i | 0 <= i < |post| :: IsSpace(post[i])
    ensures TrimEnd(s + post) == TrimEnd(s)
    decreases |post|
  {
    if |post| > 0 {
      var t := s + post;
      assert t[..|t| - 1] == s + post[..|post| - 1];
      TrimEndBlank(s, post[..|post| - 1]);
    } else {
      assert s + post == s;
    }
  }

  /** Text holding a non-blank character loses only its own leading blanks, whatever follows it. */
  lemma {:induction false} TrimStartInner(s: string, post: string)
    requires exists i | 0 <= i < |s| :: !IsSpace(s[i])
    ensures TrimStart(s + post) == TrimStart(s) + post
    decreases |s|
  {
    if IsSpace(s[0]) {
      var i :| 0 <= i < |s| && !IsSpace(s[i]);
      assert !IsSpace(s[1..][i - 1]);
      assert (s + post)[1..] == s[1..] + post;
      TrimStartInner(s[1..], post);
    }
  }

  lemma {:induction false} BlankTrims(s: string)
    requires forall i | 0 <= i < |s| :: IsSpace(s[i])
    ensures TrimStart(s) == ""
  {
    if |s| > 0 {
      BlankTrims(s[1..]);
    }
  }
}

=== FILE: reconcile.dfy ===
/**
 The reconciliation body of ctthust.py `check`: merge the course-marks items
 by exact match, then the provisional items by best-term match, collect the
 rows whose merge changed them, and write the sheet and notify only when that
 list is non-empty.
 */
module Reconcile {
  import opened Results
  import opened Records
  import opened Indexing
  import opened Matching

  /** The state threaded through a run: the sheet and the changed rows, in merge order. */
  datatype Run = Run(store: Store, changed: seq<nat>)

  /** What a completed run hands to its collaborators. */
  datatype Outcome = Outcome(
    store: Store,                                   // the sheet after every merge
    changed: seq<nat>,                              // one entry per merge that changed a row
    written: Option<Store>,                         // what the sheet update receives, if it is called
    notified: Option<seq<map<Attribute, string>>>)  // what the notification receives, if it is sent

  /** Every reported row exists. */
  ghost predicate Valid(run: Run)
  {
    forall k | 0 <= k < |run.changed| :: run.changed[k] < |run.store|
  }

  /**
   How a run may move on: rows are only appended, never removed or reordered;
   existing rows only lengthen and keep their course id; the change list only
   grows at its end; and a row not reported since only gained padding.
   */
  ghost predicate Evolves(before: Run, after: Run)
  {
    && |before.store| <= |after.store|
    && before.changed <= after.changed
    && (forall i | 0 <= i < |before.store| ::
          && |before.store[i]| <= |after.store[i]|
          && Get(after.store[i], Column(CourseId)) == Get(before.store[i], Column(CourseId)))
    && (forall i | 0 <= i < |before.store| && i !in after.changed[|before.changed|..] ::
          PadEq(before.store[i], after.store[i]))
    && (forall i | |before.store| <= i < |after.store| :: Get(after.store[i], Column(CourseId)) == "")
  }

  /** Stores a merge result in row i, reporting the row when the merge changed it. */
  function Put(run: Run, i: nat, m: Merge): (r: Run)
    requires i < |run.store|
  {
    Run(run.store[i := m.record], if m.changed then run.changed + [i] else run.changed)
  }

  /**
   Merges the item into the matched row or, with no match, into a fresh empty
   row appended at the end.
   */
  function Place(run: Run, target: Option<nat>, item: Item): (r: Run)
    requires target.Some? ==> target.value < |run.store|
    ensures |r.store| == |run.store| + (if target.None? then 1 else 0)
    ensures r.changed == run.changed || r.changed == run.changed + [target.GetOr(|run.store|)]
  {
    match target
    case Some(i) => Put(run, i, SetRecord(run.store[i], item))
    case None => Put(Grow(run), |run.store|, SetRecord([], item))
  }

  /**
   Placing an item rewrites one row, the match or a new last row, with the
   merge of the item into it (into an empty row when there is no match),
   leaves every other row alone, and reports the row exactly when the merge
   changed it.
   */
  lemma PlaceSpec(run: Run, target: Option<nat>, item: Item)
    requires target.Some? ==> target.value < |run.store|
    ensures var r, k := Place(run, target, item), target.GetOr(|run.store|);
      var m := SetRecord(if target.Some? then run.store[k] else [], item);
      && |r.store| == |run.store| + (if target.None? then 1 else 0)
      && (forall j | 0 <= j < |run.store| && j != k :: r.store[j] == run.store[j])
      && r.store[k] == m.record
      && r.changed == run.changed + (if m.changed then [k] else [])
  {
  }

  /** The run with an empty row appended. */
  function Grow(run: Run): (r: Run)
    ensures |r.store| == |run.store| + 1
  {
    Run(run.store + [[]], run.changed)
  }

  lemma GrowEvolves(run: Run)
    requires Valid(run)
    ensures Valid(Grow(run)) && Evolves(run, Grow(run))
  {
    var r := Grow(run);
    assert r.changed[|run.changed|..] == [];
  }

  /** A write that keeps the course id, only lengthens the row, and pads it when unchanged. */
  lemma PutEvolves(run: Run, i: nat, m: Merge)
    requires i < |run.store| && Valid(run)
    requires |run.store[i]| <= |m.record|
    requires Get(m.record, Column(CourseId)) == Get(run.store[i], Column(CourseId))
    requires !m.changed ==> PadEq(run.store[i], m.record)
    ensures Valid(Put(run, i, m)) && Evolves(run, Put(run, i, m))
  {
    var r := Put(run, i, m);
    if m.changed {
      assert r.changed[|run.changed|..] == [i];
    } else {
      assert r.changed[|run.changed|..] == [];
    }
  }

  lemma PlaceEvolves(run: Run, target: Option<nat>, item: Item)
    requires target.Some? ==> target.value < |run.store|
    requires Valid(run)
    ensures Valid(Place(run, target, item))
    ensures Evolves(run, Place(run, target, item))
    ensures |Place(run, target, item).store| == |run.store| + (if target.None? then 1 else 0)
  {
    match target
    case Some(i) =>
      SetRecordShape(run.store[i], item);
      PutEvolves(run, i, SetRecord(run.store[i], item));
    case None =>
      var grown := Grow(run);
      GrowEvolves(run);
      SetRecordShape(grown.store[|run.store|], item);
      PutEvolves(grown, |run.store|, SetRecord([], item));
      EvolvesTrans(run, grown, Place(run, target, item));
  }

  lemma EvolvesTrans(a: Run, b: Run, c: Run)
    requires Evolves(a, b) && Evolves(b, c)
    ensures Evolves(a, c)
  {
    forall i | 0 <= i < |a.store| && i !in c.changed[|a.changed|..]
      ensures PadEq(a.store[i], c.store[i])
    {
      assert c.changed[|a.changed|..] == b.changed[|a.changed|..] + c.changed[|b.changed|..];
      PadEqTrans(a.store[i], b.store[i], c.store[i]);
    }
  }

  /**
   A merge leaves column col of every existing row as it was, provided it
   leaves the matched row's cell alone; appended rows are full width.
   */
  lemma PlaceKeeps(run: Run, target: Option<nat>, item: Item, col: nat)
    requires target.Some? ==> target.value < |run.store|
    requires col < Width && Keyed(run.store, |run.store|, col)
    requires target.Some? ==>
      Get(SetRecord(run.store[target.value], item).record, col) == Get(run.store[target.value], col)
    ensures Keyed(Place(run, target, item).store, |Place(run, target, item).store|, col)
    ensures |run.store| <= |Place(run, target, item).store|
    ensures forall j | 0 <= j < |run.store| :: Place(run, target, item).store[j][col] == run.store[j][col]
  {
    match target
    case Some(i) =>
      SetRecordShape(run.store[i], item);
      PutKeeps(run, i, SetRecord(run.store[i], item), col);
    case None =>
      SetRecordShape([], item);
      AppendKeeps(run, SetRecord([], item), col);
  }

  lemma PutKeeps(run: Run, i: nat, m: Merge, col: nat)
    requires i < |run.store| && Keyed(run.store, |run.store|, col)
    requires col < |m.record| && Get(m.record, col) == Get(run.store[i], col)
    ensures Keyed(Put(run, i, m).store, |Put(run, i, m).store|, col)
    ensures |Put(run, i, m).store| == |run.store|
    ensures forall j | 0 <= j < |run.store| :: Put(run, i, m).store[j][col] == run.store[j][col]
  {
  }

  lemma AppendKeeps(run: Run, m: Merge, col: nat)
    requires Keyed(run.store, |run.store|, col) && col < |m.record|
    ensures Keyed(Put(Grow(run), |run.store|, m).store, |run.store| + 1, col)
    ensures |Put(Grow(run), |run.store|, m).store| == |run.store| + 1
    ensures forall j | 0 <= j < |run.store| :: Put(Grow(run), |run.store|, m).store[j][col] == run.store[j][col]
  {
  }

  /** Rows with a course id cell also have a name cell. */
  lemma KeyedNames(s: Store)
    requires Keyed(s, |s|, Column(CourseId))
    ensures Keyed(s, |s|, Column(CourseName))
  {
  }

  /** The invariant of phase 1: rows keep their course ids, so its table stays exact. */
  ghost predicate Phase1Ready(run: Run, idx: Index, n: nat)
  {
    Valid(run) && Keyed(run.store, |run.store|, Column(CourseId)) && IndexOf(idx, run.store, n, Column(CourseId))
  }

  lemma Phase1Step(run: Run, idx: Index, n: nat, target: Option<nat>, item: FullItem)
    requires Phase1Ready(run, idx, n)
    requires target.Some? ==> target.value < |run.store|
    ensures Phase1Ready(Place(run, target, item), idx, n)
    ensures Evolves(run, Place(run, target, item))
    ensures |Place(run, target, item).store| <= |run.store| + 1
  {
    PlaceEvolves(run, target, item);
    PlaceKeepsIds(run, target, item);
    PlaceKeepsIdIndex(run, idx, n, target, item);
  }

  lemma PlaceKeepsIds(run: Run, target: Option<nat>, item: Item)
    requires Keyed(run.store, |run.store|, Column(CourseId))
    requires target.Some? ==> target.value < |run.store|
    ensures Keyed(Place(run, target, item).store, |Place(run, target, item).store|, Column(CourseId))
  {
    if target.Some? {
      SetRecordShape(run.store[target.value], item);
    }
    PlaceKeeps(run, target, item, Column(CourseId));
  }

  lemma PlaceKeepsIdIndex(run: Run, idx: Index, n: nat, target: Option<nat>, item: Item)
    requires Phase1Ready(run, idx, n)
    requires target.Some? ==> target.value < |run.store|
    ensures IndexOf(idx, Place(run, target, item).store, n, Column(CourseId))
  {
    if target.Some? {
      SetRecordShape(run.store[target.value], item);
    }
    PlaceKeeps(run, target, item, Column(CourseId));
    IndexStable(idx, run.store, Place(run, target, item).store, n, Column(CourseId));
  }

  /**
   Phase 1: each course-marks item, in scrape order, merges into its exact
   match in the table built before the phase, or into a new appended row.
   */
  function Phase1(run: Run, idx: Index, n: nat, items: seq<FullItem>): (r: Run)
    requires Phase1Ready(run, idx, n)
    ensures Phase1Ready(r, idx, n)
    ensures Evolves(run, r)
    ensures |r.store| <= |run.store| + |items|
    decreases |items|
  {
    if |items| == 0 then run
    else
      IndexReadable(idx, run.store, n, Column(CourseId));
      Phase1Step(run, idx, n, ExactMatch(run.store, idx, items[0]), items[0]);
      var next := Place(run, ExactMatch(run.store, idx, items[0]), items[0]);
      var r := Phase1(next, idx, n, items[1..]);
      EvolvesTrans(run, next, r);
      r
  }

  /** The invariant of phase 2: rows keep their names, so its table stays exact. */
  ghost predicate Phase2Ready(run: Run, idx: Index, n: nat)
  {
    Valid(run) && Keyed(run.store, |run.store|, Column(CourseId)) && IndexOf(idx, run.store, n, Column(CourseName))
  }

  lemma Phase2Step(run: Run, idx: Index, n: nat, target: Option<nat>, item: TempItem)
    requires Phase2Ready(run, idx, n)
    requires target.Some? ==> item.courseName in idx && target.value in idx[item.courseName]
    ensures target.Some? ==> target.value < |run.store|
    ensures Phase2Ready(Place(run, target, item), idx, n)
    ensures Evolves(run, Place(run, target, item))
    ensures |Place(run, target, item).store| <= |run.store| + 1
  {
    NameMatchInRange(run, idx, n, target, item);
    PlaceEvolves(run, target, item);
    PlaceKeepsIds(run, target, item);
    PlaceKeepsNameIndex(run, idx, n, target, item);
  }

  /** A row matched by name is a row of the table, holding that name. */
  lemma NameMatchInRange(run: Run, idx: Index, n: nat, target: Option<nat>, item: TempItem)
    requires Phase2Ready(run, idx, n)
    requires target.Some? ==> item.courseName in idx && target.value in idx[item.courseName]
    ensures target.Some? ==> target.value < n <= |run.store| && run.store[target.value][Column(CourseName)] == item.courseName
  {
    if target.Some? {
      var p :| 0 <= p < |idx[item.courseName]| && idx[item.courseName][p] == target.value;
      assert Lists(idx[item.courseName], run.store, n, Column(CourseName), item.courseName);
    }
  }

  /** A merge into a row matched by name leaves its name cell as it was. */
  lemma PlaceKeepsNameIndex(run: Run, idx: Index, n: nat, target: Option<nat>, item: TempItem)
    requires Phase2Ready(run, idx, n)
    requires target.Some? ==> target.value < |run.store| && run.store[target.value][Column(CourseName)] == item.courseName
    ensures IndexOf(idx, Place(run, target, item).store, n, Column(CourseName))
  {
    KeyedNames(run.store);
    PlaceKeeps(run, target, item, Column(CourseName));
    IndexStable(idx, run.store, Place(run, target, item).store, n, Column(CourseName));
  }

  /**
   Phase 2: each provisional item, in scrape order, merges into its best-term
   match in the table built after phase 1, or into a new appended row; a
   non-integer term among the candidates aborts the run.
   */
  function Phase2(run: Run, idx: Index, n: nat, items: seq<TempItem>): (r: Result<Run, Error>)
    requires Phase2Ready(run, idx, n)
    ensures r.Success? ==> Phase2Ready(r.value, idx, n)
    ensures r.Success? ==> Evolves(run, r.value)
    ensures r.Success? ==> |r.value.store| <= |run.store| + |items|
    ensures r.Failure? ==> r.error.NotAnInteger?
    decreases |items|
  {
    if |items| == 0 then Success(run)
    else
      IndexReadable(idx, run.store, n, Column(CourseName));
      match BestMatch(run.store, idx, items[0].courseName)
      case Failure(e) => Failure(e)
      case Success(target) =>
        Phase2Step(run, idx, n, target, items[0]);
        var next := Place(run, target, items[0]);
        var r := Phase2(next, idx, n, items[1..]);
        if r.Success? then EvolvesTrans(run, next, r.value); r else r
  }

  /** The first row too short to have a course id cell. */
  function FirstShort(s: Store): (i: nat)
    requires !Keyed(s, |s|, Column(CourseId))
    ensures i < |s| && |s[i]| <= Column(CourseId)
    ensures forall j | 0 <= j < i :: Column(CourseId) < |s[j]|
  {
    if |s[0]| <= Column(CourseId) then 0
    else
      assert !Keyed(s[1..], |s[1..]|, Column(CourseId));
      1 + FirstShort(s[1..])
  }

  /** The changed rows read back as attribute mappings, in change order. */
  function Views(store: Store, changed: seq<nat>): (views: seq<map<Attribute, string>>)
    requires forall k | 0 <= k < |changed| :: changed[k] < |store|
    ensures |views| == |changed|
    ensures forall k | 0 <= k < |changed| :: views[k] == ToItem(store[changed[k]])
  {
    seq(|changed|, k requires 0 <= k < |changed| => ToItem(store[changed[k]]))
  }

  /**
   What an outcome keeps of the well-formed sheet the run started from: at most `bound`
   rows, stored rows never shortened and keeping their course ids, unreported
   stored rows only padded, appended rows without a course id, and the sheet
   written and the changed rows notified exactly when some row changed.
   */
  ghost predicate KeepsStored(stored: Store, o: Outcome, bound: nat)
  {
    && Keyed(stored, |stored|, Column(CourseId))
    && |stored| <= |o.store| <= bound
    && Keyed(o.store, |o.store|, Column(CourseId))
    && (forall k | 0 <= k < |o.changed| :: o.changed[k] < |o.store|)
    && (forall i | 0 <= i < |stored| :: |stored[i]| <= |o.store[i]| && o.store[i][Column(CourseId)] == stored[i][Column(CourseId)])
    && (forall i | 0 <= i < |stored| && i !in o.changed :: PadEq(stored[i], o.store[i]))
    && (forall i | |stored| <= i < |o.store| :: o.store[i][Column(CourseId)] == "")
    && (o.written.Some? <==> |o.changed| > 0)
    && (o.written.Some? ==> o.written.value == o.store)
    && (o.notified.Some? <==> |o.changed| > 0)
    && (o.notified.Some? ==> |o.notified.value| == |o.changed|)
    && (o.notified.Some? ==> forall k | 0 <= k < |o.changed| :: o.notified.value[k] == ToItem(o.store[o.changed[k]]))
  }

  /**
   One run over the sheet's `values` (None when the response has none) and the
   two scraped tables. The sheet is written, and the notification sent with
   the changed rows read back, only when some merge changed a row.
   */
  function Check(values: Option<Store>, full: seq<FullItem>, temp: seq<TempItem>): (r: Result<Outcome, Error>)
    ensures values.None? ==> r == Failure(NoValues)
    ensures values.Some? && !Keyed(values.value, |values.value|, Column(CourseId)) ==>
      r.Failure? && r.error.ShortRow? && r.error.row < |values.value| && |values.value[r.error.row]| <= Column(CourseId)
    ensures r.Success? ==> values.Some? && Keyed(values.value, |values.value|, Column(CourseId))
    ensures r.Success? ==> KeepsStored(values.value, r.value, |values.value| + |full| + |temp|)
  {
    match values
    case None => Failure(NoValues)
    case Some(stored) =>
      if !Keyed(stored, |stored|, Column(CourseId)) then Failure(ShortRow(FirstShort(stored)))
      else
        match Reconciled(stored, full, temp)
        case Failure(e) => Failure(e)
        case Success(run) =>
          ReconciledEvolves(stored, full, temp);
          Success(Complete(stored, run, |stored| + |full| + |temp|))
  }

  /** Finish, with what its outcome keeps of the sheet the run started from. */
  function Complete(stored: Store, run: Run, bound: nat): (o: Outcome)
    requires Valid(run) && Evolves(Run(stored, []), run)
    requires Keyed(stored, |stored|, Column(CourseId)) && Keyed(run.store, |run.store|, Column(CourseId))
    requires |run.store| <= bound
    ensures o == Finish(run)
    ensures KeepsStored(stored, o, bound)
  {
    FinishFacts(stored, run, bound);
    Finish(run)
  }

  /**
   The two phases over a well-formed sheet: phase 1 over the course-id table
   of the stored rows, then phase 2 over the name table of the sheet phase 1
   left behind.
   */
  function Reconciled(stored: Store, full: seq<FullItem>, temp: seq<TempItem>): (r: Result<Run, Error>)
    requires Keyed(stored, |stored|, Column(CourseId))
    ensures r.Failure? ==> r.error.NotAnInteger?
    ensures r.Success? ==> |stored| <= |r.value.store| <= |stored| + |full| + |temp|
  {
    var run1 := Phase1(Run(stored, []), IndexBy(stored, Column(CourseId)), |stored|, full);
    KeyedNames(run1.store);
    Phase2(run1, IndexBy(run1.store, Column(CourseName)), |run1.store|, temp)
  }

  /** A completed reconciliation evolved from the stored sheet and grew by at most one row per item. */
  lemma ReconciledEvolves(stored: Store, full: seq<FullItem>, temp: seq<TempItem>)
    requires Keyed(stored, |stored|, Column(CourseId))
    ensures Reconciled(stored, full, temp).Failure? ==> Reconciled(stored, full, temp).error.NotAnInteger?
    ensures Reconciled(stored, full, temp).Success? ==>
      var run := Reconciled(stored, full, temp).value;
      && Valid(run) && Evolves(Run(stored, []), run)
      && Keyed(run.store, |run.store|, Column(CourseId))
      && |run.store| <= |stored| + |full| + |temp|
  {
    var start := Run(stored, []);
    var run1 := Phase1(start, IndexBy(stored, Column(CourseId)), |stored|, full);
    KeyedNames(run1.store);
    var r := Phase2(run1, IndexBy(run1.store, Column(CourseName)), |run1.store|, temp);
    if r.Success? {
      EvolvesTrans(start, run1, r.value);
    }
  }

  /** A run over a well-formed sheet is the two phases followed by the write-and-notify decision. */
  lemma CheckReconciled(stored: Store, full: seq<FullItem>, temp: seq<TempItem>)
    requires Keyed(stored, |stored|, Column(CourseId))
    ensures Reconciled(stored, full, temp).Success? ==> Valid(Reconciled(stored, full, temp).value)
    ensures Check(Some(stored), full, temp) ==
      match Reconciled(stored, full, temp)
      case Failure(e) => Failure(e)
      case Success(run) => Success(Finish(run))
  {
    ReconciledEvolves(stored, full, temp);
  }

  /** The outcome of a completed run: write and notify only if something changed. */
  function Finish(run: Run): (o: Outcome)
    requires Valid(run)
    ensures o.store == run.store && o.changed == run.changed
    ensures o.written.Some? <==> |run.changed| > 0
    ensures o.written.Some? ==> o.written.value == run.store
    ensures o.notified.Some? <==> |run.changed| > 0
    ensures o.notified.Some? ==> o.notified.value == Views(run.store, run.changed)
  {
    if |run.changed| == 0 then Outcome(run.store, run.changed, None, None)
    else Outcome(run.store, run.changed, Some(run.store), Some(Views(run.store, run.changed)))
  }

  /** What a completed run's outcome keeps of the sheet it started from. */
  lemma FinishFacts(stored: Store, run: Run, bound: nat)
    requires Valid(run) && Evolves(Run(stored, []), run)
    requires Keyed(stored, |stored|, Column(CourseId)) && Keyed(run.store, |run.store|, Column(CourseId))
    requires |run.store| <= bound
    ensures KeepsStored(stored, Finish(run), bound)
  {
    assert run.changed[0..] == run.changed;
    forall i | 0 <= i < |stored|
      ensures run.store[i][Column(CourseId)] == stored[i][Column(CourseId)]
    {
      assert Get(run.store[i], Column(CourseId)) == Get(stored[i], Column(CourseId));
    }
    forall i | |stored| <= i < |run.store|
      ensures run.store[i][Column(CourseId)] == ""
    {
      assert Get(run.store[i], Column(CourseId)) == "";
    }
  }
}

=== FILE: records.dfy ===
/**
 Sparse grade records (ctthust.py): a row of the grade sheet is a list of
 strings addressed through the fixed column map, and a scraped item is merged
 into a row field by field.
 */
module Records {

  /** The logical attributes of a grade row: the keys of the column map. */
  datatype Attribute = Term | CourseName | CourseId | CourseCredit | MidScore | EndScore | CourseWeight

  /** Number of columns the map covers. */
  const Width: nat := 7

  /** The column map: attribute to zero-based column. */
  function Column(a: Attribute): (j: nat)
    ensures j < Width
  {
    match a
    case Term => 0
    case CourseName => 1
    case CourseId => 2
    case CourseCredit => 3
    case MidScore => 4
    case EndScore => 5
    case CourseWeight => 6
  }

  /** The attribute held in column j: the column map read backwards. */
  function AttributeAt(j: nat): (a: Attribute)
    requires j < Width
    ensures Column(a) == j
  {
    if j == 0 then Term
    else if j == 1 then CourseName
    else if j == 2 then CourseId
    else if j == 3 then CourseCredit
    else if j == 4 then MidScore
    else if j == 5 then EndScore
    else CourseWeight
  }

  /** The column map is one-to-one. */
  lemma ColumnInjective(a: Attribute, b: Attribute)
    ensures Column(a) == Column(b) ==> a == b
  {
  }

  /** A sheet row; rows coming back from the sheet may stop short of Width. */
  type Record = seq<string>

  /** The sheet: an ordered list of rows. */
  type Store = seq<Record>

  function Max(a: nat, b: nat): nat
  {
    if a < b then b else a
  }

  /** Reading column j of a row, where a missing cell reads as empty. */
  function Get(rec: Record, j: nat): (v: string)
    ensures j < |rec| ==> v == rec[j]
    ensures |rec| <= j ==> v == ""
  {
    if j < |rec| then rec[j] else ""
  }

  /** b is a, possibly lengthened by empty cells: the two read the same everywhere. */
  ghost predicate PadEq(a: Record, b: Record)
  {
    |a| <= |b| && forall j | 0 <= j < |b| :: b[j] == Get(a, j)
  }

  lemma PadEqReadsSame(a: Record, b: Record, j: nat)
    requires PadEq(a, b)
    ensures Get(a, j) == Get(b, j)
  {
  }

  lemma PadEqTrans(a: Record, b: Record, c: Record)
    requires PadEq(a, b) && PadEq(b, c)
    ensures PadEq(a, c)
  {
    forall j | 0 <= j < |c|
      ensures c[j] == Get(a, j)
    {
      PadEqReadsSame(a, b, j);
    }
  }

  /** Appends empty cells until the row has at least n cells. */
  function Pad(rec: Record, n: nat): (r: Record)
    ensures |r| == Max(|rec|, n)
    ensures PadEq(rec, r)
  {
    if |rec| < n then rec + seq(n - |rec|, _ => "") else rec
  }

  /** Result of writing into a row: the row afterwards and whether a cell changed. */
  datatype Merge = Merge(record: Record, changed: bool)

  /**
   Writes one attribute. The row is padded first, even when the value is
   empty; an empty value writes nothing and reports no change; otherwise the
   cell takes the value and the change is reported when the old text differs.
   */
  function SetAttribute(rec: Record, a: Attribute, value: string): (r: Merge)
    ensures |r.record| == Max(|rec|, Column(a) + 1)
    ensures forall j | Width <= j :: Get(r.record, j) == Get(rec, j)
    ensures forall b {:trigger Get(r.record, Column(b))} :: Get(r.record, Column(b)) == if b == a && value != "" then value else Get(rec, Column(b))
    ensures r.changed <==> value != "" && value != Get(rec, Column(a))
  {
    var padded := Pad(rec, Column(a) + 1);
    if value == "" then Merge(padded, false)
    else Merge(padded[Column(a) := value], padded[Column(a)] != value)
  }

  /** A scraped row, with exactly the keys each page's extractor produces. */
  datatype Item =
    | Full(term: string, courseId: string, courseName: string, courseCredit: string,
           classId: string, midScore: string, endScore: string)
    | Temp(classId: string, courseName: string, courseWeight: string, midScore: string, endScore: string)

  /** A row of the official course-marks table. */
  type FullItem = i: Item | i.Full? witness Full("", "", "", "", "", "", "")

  /** A row of the provisional class-grade table. */
  type TempItem = i: Item | i.Temp? witness Temp("", "", "", "", "")

  /** The item's value for an attribute, or empty when its page has no such key. */
  function Value(item: Item, a: Attribute): (v: string)
    ensures item.Full? && a == CourseWeight ==> v == ""
    ensures item.Temp? && (a == Term || a == CourseId || a == CourseCredit) ==> v == ""
    ensures a == CourseName ==> v == item.courseName
    ensures a == MidScore ==> v == item.midScore
    ensures a == EndScore ==> v == item.endScore
    ensures item.Full? && a == Term ==> v == item.term
    ensures item.Full? && a == CourseId ==> v == item.courseId
    ensures item.Full? && a == CourseCredit ==> v == item.courseCredit
    ensures item.Temp? && a == CourseWeight ==> v == item.courseWeight
  {
    match a
    case Term => if item.Full? then item.term else ""
    case CourseName => item.courseName
    case CourseId => if item.Full? then item.courseId else ""
    case CourseCredit => if item.Full? then item.courseCredit else ""
    case MidScore => item.midScore
    case EndScore => item.endScore
    case CourseWeight => if item.Temp? then item.courseWeight else ""
  }

  /** The six attributes a merge writes: every one except the course id. */
  predicate Merged(a: Attribute)
  {
    a != CourseId
  }

  /** Merging the item would overwrite attribute a of the row with a different text. */
  predicate Differs(rec: Record, item: Item, a: Attribute)
  {
    Value(item, a) != "" && Value(item, a) != Get(rec, Column(a))
  }

  /** The row already holds every non-empty value the item would merge. */
  predicate Agrees(rec: Record, item: Item)
  {
    forall a {:trigger Differs(rec, item, a)} | Merged(a) :: !Differs(rec, item, a)
  }

  /** The attributes set_record writes, in the order it writes them. */
  const MergeOrder: seq<Attribute> := [CourseName, Term, CourseCredit, MidScore, EndScore, CourseWeight]

  predicate Distinct(attrs: seq<Attribute>)
  {
    forall p, q | 0 <= p < q < |attrs| :: attrs[p] != attrs[q]
  }

  /**
   Writes the item's value for each attribute of attrs in turn; the row
   changed when any single write changed it.
   */
  function SetAttributes(rec: Record, item: Item, attrs: seq<Attribute>): (r: Merge)
    requires Distinct(attrs)
    ensures |rec| <= |r.record| <= Max(|rec|, Width)
    ensures CourseWeight in attrs ==> |r.record| == Max(|rec|, Width)
    ensures forall a {:trigger Get(r.record, Column(a))} :: Get(r.record, Column(a)) == (if a in attrs && Value(item, a) != "" then Value(item, a) else Get(rec, Column(a)))
    ensures forall j | Width <= j :: Get(r.record, j) == Get(rec, j)
    ensures r.changed <==> exists a | a in attrs :: Differs(rec, item, a)
    decreases |attrs|
  {
    if |attrs| == 0 then Merge(rec, false)
    else
      var first := SetAttribute(rec, attrs[0], Value(item, attrs[0]));
      var rest := SetAttributes(first.record, item, attrs[1..]);
      assert attrs[0] !in attrs[1..];
      assert forall a :: a in attrs <==> a == attrs[0] || a in attrs[1..];
      assert forall a | a != attrs[0] :: Differs(first.record, item, a) == Differs(rec, item, a);
      assert first.changed <==> Differs(rec, item, attrs[0]);
      Merge(rest.record, rest.changed || first.changed)
  }

  /** The text attribute a holds after merging the item: its non-empty value, else the old text. */
  function Pick(rec: Record, item: Item, a: Attribute): string
  {
    if Merged(a) && Value(item, a) != "" then Value(item, a) else Get(rec, Column(a))
  }

  /** Agreement on the six merged attributes, one by one. */
  lemma AgreesListed(rec: Record, item: Item)
    ensures Agrees(rec, item) <==>
      !(|| Differs(rec, item, Term) || Differs(rec, item, CourseName)
        || Differs(rec, item, CourseCredit) || Differs(rec, item, MidScore)
        || Differs(rec, item, EndScore) || Differs(rec, item, CourseWeight))
  {
    forall a | Merged(a)
      ensures a in MergeOrder
    {
      match a
      case Term =>
      case CourseName =>
      case CourseCredit =>
      case MidScore =>
      case EndScore =>
      case CourseWeight =>
    }
  }

  /** The merged row: padded to Width, each attribute showing its picked text. */
  function Fill(rec: Record, item: Item): Record
  {
    var row := [Pick(rec, item, Term), Pick(rec, item, CourseName), Pick(rec, item, CourseId),
                Pick(rec, item, CourseCredit), Pick(rec, item, MidScore), Pick(rec, item, EndScore),
                Pick(rec, item, CourseWeight)];
    if |rec| <= Width then row else row + rec[Width..]
  }

  lemma FillCells(rec: Record, item: Item)
    ensures |Fill(rec, item)| == Max(|rec|, Width)
    ensures forall a :: Get(Fill(rec, item), Column(a)) == Pick(rec, item, a)
    ensures forall j | Width <= j :: Get(Fill(rec, item), j) == Get(rec, j)
  {
    var row := Fill(rec, item);
    forall a
      ensures Get(row, Column(a)) == Pick(rec, item, a)
    {
      match a
      case Term =>
      case CourseName =>
      case CourseId =>
      case CourseCredit =>
      case MidScore =>
      case EndScore =>
      case CourseWeight =>
    }
  }

  /**
   Merges an item into a row, stated cell by cell: the row padded to Width,
   each merged attribute showing the item's non-empty value, every other cell
   kept; the row changed when some merged attribute differed.
   */
  function SetRecord(rec: Record, item: Item): (r: Merge)
    ensures |r.record| == Max(|rec|, Width)
    ensures forall a {:trigger Get(r.record, Column(a))} :: Get(r.record, Column(a)) == (if Merged(a) && Value(item, a) != "" then Value(item, a) else Get(rec, Column(a)))
    ensures forall j | Width <= j :: Get(r.record, j) == Get(rec, j)
    ensures r.changed <==> !Agrees(rec, item)
  {
    FillCells(rec, item);
    AgreesListed(rec, item);
    Merge(Fill(rec, item),
      || Differs(rec, item, Term) || Differs(rec, item, CourseName)
      || Differs(rec, item, CourseCredit) || Differs(rec, item, MidScore)
      || Differs(rec, item, EndScore) || Differs(rec, item, CourseWeight))
  }

  /**
   The merge as ctthust.py performs it, six single-attribute writes in a row,
   ends in exactly the row and the change flag SetRecord states.
   */
  lemma SequentialMerge(rec: Record, item: Item)
    ensures SetAttributes(rec, item, MergeOrder) == SetRecord(rec, item)
  {
    MergeOrderIsMerged();
    assert MergeOrder[5] == CourseWeight;
    SequentialCells(rec, item);
  }

  /** The attributes the merge writes are exactly the merged ones. */
  lemma MergeOrderIsMerged()
    ensures Distinct(MergeOrder)
    ensures forall a :: a in MergeOrder <==> Merged(a)
  {
    forall a | Merged(a)
      ensures a in MergeOrder
    {
      match a
      case Term => assert MergeOrder[1] == a;
      case CourseName => assert MergeOrder[0] == a;
      case CourseCredit => assert MergeOrder[2] == a;
      case MidScore => assert MergeOrder[3] == a;
      case EndScore => assert MergeOrder[4] == a;
      case CourseWeight => assert MergeOrder[5] == a;
    }
  }

  lemma SequentialCells(rec: Record, item: Item)
    requires forall a :: a in MergeOrder <==> Merged(a)
    requires Distinct(MergeOrder)
    requires |SetAttributes(rec, item, MergeOrder).record| == Max(|rec|, Width)
    ensures SetAttributes(rec, item, MergeOrder).record == SetRecord(rec, item).record
  {
    var seqRow := SetAttributes(rec, item, MergeOrder).record;
    var row := SetRecord(rec, item).record;
    assert forall a :: Get(seqRow, Column(a)) == Get(row, Column(a));
    SameReads(seqRow, row);
  }

  /** Two rows of one length that read the same in every column are equal. */
  lemma SameReads(x: Record, y: Record)
    requires |x| == |y|
    requires forall a :: Get(x, Column(a)) == Get(y, Column(a))
    requires forall j | Width <= j :: Get(x, j) == Get(y, j)
    ensures x == y
  {
    forall j | 0 <= j < |x|
      ensures x[j] == y[j]
    {
      if j < Width {
        var a := AttributeAt(j);
        assert Get(x, Column(a)) == Get(y, Column(a));
      } else {
        assert Get(x, j) == Get(y, j);
      }
    }
  }

  /** The keys of the column map. */
  const Attributes: set<Attribute> := {Term, CourseName, CourseId, CourseCredit, MidScore, EndScore, CourseWeight}

  lemma AttributesListed()
    ensures forall a :: a in Attributes
  {
    forall a ensures a in Attributes {
      match a
      case Term =>
      case CourseName =>
      case CourseId =>
      case CourseCredit =>
      case MidScore =>
      case EndScore =>
      case CourseWeight =>
    }
  }

  /** The row read back as an attribute-to-text mapping, one entry per key of the column map. */
  function ToItem(rec: Record): (view: map<Attribute, string>)
    ensures forall a :: a in view && view[a] == Get(rec, Column(a))
  {
    AttributesListed();
    map a | a in Attributes :: Get(rec, Column(a))
  }

  /** Every cell a merge leaves in place reads as before. */
  lemma SetRecordReads(rec: Record, item: Item, j: nat)
    ensures Get(SetRecord(rec, item).record, j)
      == if j < Width && Merged(AttributeAt(j)) && Value(item, AttributeAt(j)) != ""
         then Value(item, AttributeAt(j)) else Get(rec, j)
  {
  }

  /** Two rows that read the same in every column, the longer one padded. */
  lemma ReadsToPadEq(a: Record, b: Record)
    requires |a| <= |b|
    requires forall j :: Get(b, j) == Get(a, j)
    ensures PadEq(a, b)
  {
    forall j | 0 <= j < |b|
      ensures b[j] == Get(a, j)
    {
      assert Get(b, j) == b[j];
    }
  }

  /** Merging an item the row already agrees with leaves every column reading as before. */
  lemma AgreeingMergeReadsSame(rec: Record, item: Item)
    requires Agrees(rec, item)
    ensures forall j: nat :: Get(SetRecord(rec, item).record, j) == Get(rec, j)
  {
    forall j: nat
      ensures Get(SetRecord(rec, item).record, j) == Get(rec, j)
    {
      if j < Width {
        var a := AttributeAt(j);
        if Merged(a) {
          assert !Differs(rec, item, a);
        }
      }
    }
  }

  /** A merge that reports no change only pads the row. */
  lemma UnchangedIsPadding(rec: Record, item: Item)
    requires !SetRecord(rec, item).changed
    ensures PadEq(rec, SetRecord(rec, item).record)
  {
    AgreeingMergeReadsSame(rec, item);
    ReadsToPadEq(rec, SetRecord(rec, item).record);
  }

  /**
   A merge only lengthens the row, never touches the course id, and, when it
   reports no change, only pads.
   */
  lemma SetRecordShape(rec: Record, item: Item)
    ensures |rec| <= |SetRecord(rec, item).record| && Width <= |SetRecord(rec, item).record|
    ensures Get(SetRecord(rec, item).record, Column(CourseId)) == Get(rec, Column(CourseId))
    ensures !SetRecord(rec, item).changed ==> PadEq(rec, SetRecord(rec, item).record)
  {
    if !SetRecord(rec, item).changed {
      UnchangedIsPadding(rec, item);
    }
  }

  /** After a merge the row holds the item's values: a second merge changes nothing. */
  lemma SetRecordIdempotent(rec: Record, item: Item)
    ensures SetRecord(SetRecord(rec, item).record, item) == Merge(SetRecord(rec, item).record, false)
  {
    MergedAgrees(rec, item);
    RemergeIsIdentity(SetRecord(rec, item).record, item);
  }

  /** Merging into a full-width row that already agrees with the item is the identity. */
  lemma RemergeIsIdentity(rec: Record, item: Item)
    requires Width <= |rec| && Agrees(rec, item)
    ensures SetRecord(rec, item) == Merge(rec, false)
  {
    AgreeingMergeReadsSame(rec, item);
    var r := SetRecord(rec, item).record;
    ReadsToPadEq(rec, r);
  }

  /** A merged row agrees with the item it was merged with. */
  lemma MergedAgrees(rec: Record, item: Item)
    ensures Agrees(SetRecord(rec, item).record, item)
  {
  }

  /** Cells beyond a row's end and padding cells read the same: the mapping ignores padding. */
  lemma ToItemIgnoresPadding(a: Record, b: Record)
    requires PadEq(a, b)
    ensures ToItem(a) == ToItem(b)
  {
    forall at: Attribute
      ensures ToItem(a)[at] == ToItem(b)[at]
    {
      PadEqReadsSame(a, b, Column(at));
    }
  }

  /**
   The mapping of a merged row shows each non-empty value of the item, keeps
   the course id, and keeps every attribute the item leaves empty.
   */
  lemma ToItemAfterMerge(rec: Record, item: Item, a: Attribute)
    ensures ToItem(SetRecord(rec, item).record)[a]
      == if Merged(a) && Value(item, a) != "" then Value(item, a) else ToItem(rec)[a]
  {
  }
}

=== FILE: results.dfy ===
/** Option and result wrappers shared by the grade-sheet and the seen-items models. */
module Results {

  /** A value that may be absent: a missing dictionary key, a row with no match. */
  datatype Option<+T> = None | Some(value: T) {

    /** The wrapped value, or the given default when absent. */
    function GetOr(default: T): T
    {
      match this
      case Some(v) => v
      case None => default
    }
  }

  /** The outcome of a run that either completes or raises. */
  datatype Result<+T, +E> = Success(value: T) | Failure(error: E)
}

=== FILE: run_facts.dfy ===
/**
 Properties of whole reconciliation runs (ctthust.py `check`): what a second
 run over the sheet a first run left behind does, what two course-marks items
 in one run do, and a mid score arriving for a stored course.
 */
module RunFacts {
  import opened Results
  import opened Numerals
  import opened Records
  import opened Indexing
  import opened Matching
  import opened Reconcile

  /** A run over one course-marks item merges it into its exact match or appends it. */
  lemma Phase1One(run: Run, idx: Index, n: nat, f: FullItem)
    requires Phase1Ready(run, idx, n)
    ensures TableReadable(run.store, idx)
    ensures Phase1(run, idx, n, [f]) == Place(run, ExactMatch(run.store, idx, f), f)
  {
    IndexReadable(idx, run.store, n, Column(CourseId));
    assert [f][1..] == [];
  }

  /** A run over one provisional item merges it into its best-term match, appends it, or aborts. */
  lemma Phase2One(run: Run, idx: Index, n: nat, t: TempItem)
    requires Phase2Ready(run, idx, n)
    ensures TableReadable(run.store, idx)
    ensures BestMatch(run.store, idx, t.courseName).Failure? ==>
      Phase2(run, idx, n, [t]) == Failure(BestMatch(run.store, idx, t.courseName).error)
    ensures BestMatch(run.store, idx, t.courseName).Success? ==>
      Phase2(run, idx, n, [t]) == Success(Place(run, BestMatch(run.store, idx, t.courseName).value, t))
  {
    IndexReadable(idx, run.store, n, Column(CourseName));
    assert [t][1..] == [];
  }

  /** A run with only course-marks items never aborts once the sheet is well formed. */
  lemma CheckFullOnly(stored: Store, f: FullItem)
    requires Keyed(stored, |stored|, Column(CourseId))
    ensures TableReadable(stored, IndexBy(stored, Column(CourseId)))
    ensures Valid(Place(Run(stored, []), ExactMatch(stored, IndexBy(stored, Column(CourseId)), f), f))
    ensures Check(Some(stored), [f], []) ==
      Success(Finish(Place(Run(stored, []), ExactMatch(stored, IndexBy(stored, Column(CourseId)), f), f)))
  {
    var start := Run(stored, []);
    var idx := IndexBy(stored, Column(CourseId));
    CheckReconciled(stored, [f], []);
    Phase1One(start, idx, |stored|, f);
    PlaceEvolves(start, ExactMatch(stored, idx, f), f);
    var run1 := Phase1(start, idx, |stored|, [f]);
    KeyedNames(run1.store);
    assert Phase2(run1, IndexBy(run1.store, Column(CourseName)), |run1.store|, []) == Success(run1);
    assert Reconciled(stored, [f], []) == Success(run1);
  }

  /** A run with only provisional items: no course-marks merge happens first. */
  lemma CheckTempOnly(stored: Store, t: TempItem)
    requires Keyed(stored, |stored|, Column(CourseId))
    ensures Keyed(stored, |stored|, Column(CourseName))
    ensures TableReadable(stored, IndexBy(stored, Column(CourseName)))
    ensures
      var idx := IndexBy(stored, Column(CourseName));
      BestMatch(stored, idx, t.courseName).Success? ==> Valid(Place(Run(stored, []), BestMatch(stored, idx, t.courseName).value, t))
    ensures
      var idx := IndexBy(stored, Column(CourseName));
      && (BestMatch(stored, idx, t.courseName).Failure? ==>
            Check(Some(stored), [], [t]) == Failure(BestMatch(stored, idx, t.courseName).error))
      && (BestMatch(stored, idx, t.courseName).Success? ==>
            Check(Some(stored), [], [t]) == Success(Finish(Place(Run(stored, []), BestMatch(stored, idx, t.courseName).value, t))))
  {
    var start := Run(stored, []);
    KeyedNames(stored);
    var idx := IndexBy(stored, Column(CourseName));
    CheckReconciled(stored, [], [t]);
    assert Phase1(start, IndexBy(stored, Column(CourseId)), |stored|, []) == start;
    Phase2One(start, idx, |stored|, t);
    BestMatchIsFirstMax(stored, idx, |stored|, t.courseName);
    if BestMatch(stored, idx, t.courseName).Success? {
      PlaceEvolves(start, BestMatch(stored, idx, t.courseName).value, t);
    }
    assert Reconciled(stored, [], [t]) == Phase2(start, idx, |stored|, [t]);
  }

  // ---------------------------------------------------------------------------
  // A course-marks item with no row of its course id
  // ---------------------------------------------------------------------------

  /**
   A course-marks item whose course id no row carries is appended as a new
   row, reported as changed; that row's course id cell is left empty.
   */
  lemma MissAppends(stored: Store, f: FullItem)
    requires Keyed(stored, |stored|, Column(CourseId))
    requires forall i | 0 <= i < |stored| :: stored[i][Column(CourseId)] != f.courseId
    requires f.courseName != ""
    ensures Check(Some(stored), [f], []).Success?
    ensures
      var o := Check(Some(stored), [f], []).value;
      && |o.store| == |stored| + 1
      && o.store[..|stored|] == stored[..]
      && o.changed == [|stored|]
      && o.written == Some(o.store)
      && o.store[|stored|][Column(CourseId)] == ""
      && Keyed(o.store, |o.store|, Column(CourseId))
  {
    var idx := IndexBy(stored, Column(CourseId));
    CheckFullOnly(stored, f);
    ExactMatchIsFirst(stored, idx, |stored|, f);
    forall j | 0 <= j < |stored|
      ensures !Exact(stored[j], f)
    {
      assert Get(stored[j], Column(CourseId)) == stored[j][Column(CourseId)];
    }
    var start := Run(stored, []);
    PlaceEvolves(start, None, f);
    PlaceKeepsIds(start, None, f);
    AppendedRow(start, f);
  }

  /** The row a missed item is appended as: the item's values, no course id, and a reported change when it has a name. */
  lemma AppendedRow(run: Run, item: Item)
    requires Valid(run)
    ensures
      var r := Place(run, None, item);
      && r.store == run.store + [SetRecord([], item).record]
      && (item.courseName != "" ==> r.changed == run.changed + [|run.store|])
  {
    var m := SetRecord([], item);
    if item.courseName != "" {
      assert Differs([], item, CourseName);
    }
  }

  /**
   Rerunning over the sheet the first run left behind appends the same item
   again: the appended row has no course id, so the item never finds it, and
   every run reports a change and writes the sheet.
   */
  lemma RerunAppendsAgain(stored: Store, f: FullItem)
    requires Keyed(stored, |stored|, Column(CourseId))
    requires forall i | 0 <= i < |stored| :: stored[i][Column(CourseId)] != f.courseId
    requires f.courseId != "" && f.courseName != ""
    ensures Check(Some(stored), [f], []).Success?
    ensures
      var first := Check(Some(stored), [f], []).value;
      && Check(Some(first.store), [f], []).Success?
      && |Check(Some(first.store), [f], []).value.store| == |stored| + 2
      && Check(Some(first.store), [f], []).value.changed == [|stored| + 1]
  {
    var after := MissedStore(stored, f);
    MissAppends(after, f);
  }

  /** The sheet after a miss still has no row with the item's course id. */
  lemma MissedStore(stored: Store, f: FullItem) returns (after: Store)
    requires Keyed(stored, |stored|, Column(CourseId))
    requires forall i | 0 <= i < |stored| :: stored[i][Column(CourseId)] != f.courseId
    requires f.courseId != "" && f.courseName != ""
    ensures Check(Some(stored), [f], []).Success?
    ensures after == Check(Some(stored), [f], []).value.store
    ensures |after| == |stored| + 1 && Keyed(after, |after|, Column(CourseId))
    ensures forall i | 0 <= i < |after| :: after[i][Column(CourseId)] != f.courseId
  {
    MissAppends(stored, f);
    after := Check(Some(stored), [f], []).value.store;
    GrownWithout(stored, after, Column(CourseId), f.courseId);
  }

  /** A sheet grown by one row with an empty key cell still lacks a non-empty key. */
  lemma GrownWithout(stored: Store, after: Store, col: nat, key: string)
    requires |after| == |stored| + 1 && after[..|stored|] == stored[..]
    requires Keyed(after, |after|, col)
    requires forall i | 0 <= i < |stored| :: stored[i][col] != key
    requires after[|stored|][col] == "" && key != ""
    ensures forall i | 0 <= i < |after| :: after[i][col] != key
  {
    forall i | 0 <= i < |after|
      ensures after[i][col] != key
    {
      if i < |stored| {
        assert after[i] == after[..|stored|][i];
      }
    }
  }

  // ---------------------------------------------------------------------------
  // A provisional item with no row of its name
  // ---------------------------------------------------------------------------

  /** A provisional item whose name no row carries is appended with its name and an empty term. */
  lemma TempMissAppends(stored: Store, t: TempItem)
    requires Keyed(stored, |stored|, Column(CourseId))
    requires forall i | 0 <= i < |stored| :: stored[i][Column(CourseName)] != t.courseName
    ensures Check(Some(stored), [], [t]).Success?
    ensures
      var o := Check(Some(stored), [], [t]).value;
      && |o.store| == |stored| + 1
      && Keyed(o.store, |o.store|, Column(CourseId))
      && Get(o.store[|stored|], Column(CourseName)) == t.courseName
      && Get(o.store[|stored|], Column(Term)) == ""
  {
    CheckTempOnly(stored, t);
    NameMissed(stored, t);
    var start := Run(stored, []);
    PlaceKeepsIds(start, None, t);
    NewRowCells(start, t);
    PlaceEvolves(start, None, t);
  }

  /** No row carries the item's name, so the best-term match finds nothing. */
  lemma NameMissed(stored: Store, t: TempItem)
    requires Keyed(stored, |stored|, Column(CourseId))
    requires forall i | 0 <= i < |stored| :: stored[i][Column(CourseName)] != t.courseName
    ensures Keyed(stored, |stored|, Column(CourseName))
    ensures TableReadable(stored, IndexBy(stored, Column(CourseName)))
    ensures BestMatch(stored, IndexBy(stored, Column(CourseName)), t.courseName) == Success(None)
  {
    KeyedNames(stored);
    var idx := IndexBy(stored, Column(CourseName));
    BestMatchIsFirstMax(stored, idx, |stored|, t.courseName);
    assert forall j | 0 <= j < |stored| :: !Named(stored[j], t.courseName);
  }

  /** The outcome carries the run's sheet. */
  lemma NewRowCells(run: Run, item: TempItem)
    ensures
      var row := Place(run, None, item).store[|run.store|];
      && Get(row, Column(CourseName)) == item.courseName
      && Get(row, Column(Term)) == ""
      && |row| == Width
  {
  }

  /**
   Rerunning over the sheet the first run left behind aborts: the appended row
   carries the item's name with an empty term, and `int('')` raises.
   */
  lemma TempMissBreaksRerun(stored: Store, t: TempItem)
    requires Keyed(stored, |stored|, Column(CourseId))
    requires forall i | 0 <= i < |stored| :: stored[i][Column(CourseName)] != t.courseName
    ensures Check(Some(stored), [], [t]).Success?
    ensures
      var first := Check(Some(stored), [], [t]).value;
      && Check(Some(first.store), [], [t]).Failure?
      && Check(Some(first.store), [], [t]).error.NotAnInteger?
  {
    TempMissAppends(stored, t);
    var s := Check(Some(stored), [], [t]).value.store;
    CheckTempOnly(s, t);
    var idx := IndexBy(s, Column(CourseName));
    BestMatchIsFirstMax(s, idx, |s|, t.courseName);
    var j := |stored|;
    BlankIsNotInteger(Get(s[j], Column(Term)));
    assert Named(s[j], t.courseName) && TermNumber(s[j]).None?;
  }

  // ---------------------------------------------------------------------------
  // A course-marks item that finds its row
  // ---------------------------------------------------------------------------

  /** At most one row is the first exact one. */
  lemma FirstExactUnique(s: Store, n: nat, f: FullItem, i: nat, k: nat)
    requires FirstExactAt(s, n, f, i) && FirstExactAt(s, n, f, k)
    ensures i == k
  {
  }

  /** A course-marks item with an exact row merges into that row. */
  lemma ExactHitMerges(stored: Store, f: FullItem, i: nat)
    requires Keyed(stored, |stored|, Column(CourseId))
    requires FirstExactAt(stored, |stored|, f, i)
    ensures Valid(Place(Run(stored, []), Some(i), f))
    ensures Check(Some(stored), [f], []) == Success(Finish(Place(Run(stored, []), Some(i), f)))
  {
    PlaceEvolves(Run(stored, []), Some(i), f);
    var idx := IndexBy(stored, Column(CourseId));
    CheckFullOnly(stored, f);
    ExactMatchIsFirst(stored, idx, |stored|, f);
    FirstExactUnique(stored, |stored|, f, i, ExactMatch(stored, idx, f).value);
  }

  /** After the merge the row still carries the item's course id and term, and no earlier row does. */
  lemma MergedStaysFirst(stored: Store, f: FullItem, i: nat)
    requires Keyed(stored, |stored|, Column(CourseId))
    requires FirstExactAt(stored, |stored|, f, i)
    ensures FirstExactAt(stored[i := SetRecord(stored[i], f).record], |stored|, f, i)
  {
    var t := stored[i := SetRecord(stored[i], f).record];
    assert Exact(t[i], f);
  }

  /**
   Rerunning with the same course-marks item over the sheet the first run left
   behind changes nothing: the item finds the same row, which already holds
   its values, so there is no write and no notification.
   */
  lemma RerunAfterHitIsQuiet(stored: Store, f: FullItem, i: nat)
    requires Keyed(stored, |stored|, Column(CourseId))
    requires FirstExactAt(stored, |stored|, f, i)
    ensures Check(Some(stored), [f], []).Success?
    ensures
      var first := Check(Some(stored), [f], []).value;
      Check(Some(first.store), [f], []) == Success(Outcome(first.store, [], None, None))
  {
    var after := HitStore(stored, f, i);
    ExactHitMerges(after, f, i);
    QuietRemerge(after, f, i);
  }

  /** The sheet after a hit: the matched row merged, every other row as it was. */
  lemma HitStore(stored: Store, f: FullItem, i: nat) returns (after: Store)
    requires Keyed(stored, |stored|, Column(CourseId))
    requires FirstExactAt(stored, |stored|, f, i)
    ensures Check(Some(stored), [f], []).Success?
    ensures after == Check(Some(stored), [f], []).value.store
    ensures after == stored[i := SetRecord(stored[i], f).record]
    ensures Keyed(after, |after|, Column(CourseId)) && FirstExactAt(after, |after|, f, i)
  {
    ExactHitMerges(stored, f, i);
    after := stored[i := SetRecord(stored[i], f).record];
    PlaceKeepsIds(Run(stored, []), Some(i), f);
    MergedStaysFirst(stored, f, i);
  }

  /** Merging again into a row that went through the same merge leaves the run empty-handed. */
  lemma QuietRemerge(after: Store, f: FullItem, i: nat)
    requires i < |after|
    requires exists rec: Record :: after[i] == SetRecord(rec, f).record
    ensures Valid(Place(Run(after, []), Some(i), f))
    ensures Finish(Place(Run(after, []), Some(i), f)) == Outcome(after, [], None, None)
  {
    PlaceEvolves(Run(after, []), Some(i), f);
    var rec: Record :| after[i] == SetRecord(rec, f).record;
    SetRecordIdempotent(rec, f);
    assert after[i := after[i]] == after;
  }

  // ---------------------------------------------------------------------------
  // Two course-marks items in one run
  // ---------------------------------------------------------------------------

  /** A run over two course-marks items places the first, then looks the second up in the same table. */
  lemma Phase1Two(run: Run, idx: Index, n: nat, f: FullItem, g: FullItem) returns (next: Run)
    requires Phase1Ready(run, idx, n)
    ensures TableReadable(run.store, idx)
    ensures next == Place(run, ExactMatch(run.store, idx, f), f)
    ensures Phase1Ready(next, idx, n) && TableReadable(next.store, idx)
    ensures Phase1(run, idx, n, [f, g]) == Place(next, ExactMatch(next.store, idx, g), g)
  {
    IndexReadable(idx, run.store, n, Column(CourseId));
    Phase1Step(run, idx, n, ExactMatch(run.store, idx, f), f);
    next := Place(run, ExactMatch(run.store, idx, f), f);
    assert [f, g][1..] == [g];
    Phase1One(next, idx, n, g);
  }

  /** The whole check over two course-marks items: both are looked up in the table built from the stored sheet. */
  lemma CheckFullTwo(stored: Store, f: FullItem, g: FullItem) returns (next: Run, last: Run)
    requires Keyed(stored, |stored|, Column(CourseId))
    ensures TableReadable(stored, IndexBy(stored, Column(CourseId)))
    ensures next == Place(Run(stored, []), ExactMatch(stored, IndexBy(stored, Column(CourseId)), f), f)
    ensures Phase1Ready(next, IndexBy(stored, Column(CourseId)), |stored|)
    ensures TableReadable(next.store, IndexBy(stored, Column(CourseId)))
    ensures last == Place(next, ExactMatch(next.store, IndexBy(stored, Column(CourseId)), g), g)
    ensures Valid(last)
    ensures Check(Some(stored), [f, g], []) == Success(Finish(last))
  {
    var start := Run(stored, []);
    var idx := IndexBy(stored, Column(CourseId));
    CheckReconciled(stored, [f, g], []);
    next := Phase1Two(start, idx, |stored|, f, g);
    last := Place(next, ExactMatch(next.store, idx, g), g);
    PlaceEvolves(next, ExactMatch(next.store, idx, g), g);
    var run1 := Phase1(start, idx, |stored|, [f, g]);
    KeyedNames(run1.store);
    assert Phase2(run1, IndexBy(run1.store, Column(CourseName)), |run1.store|, []) == Success(run1);
    assert Reconciled(stored, [f, g], []) == Success(run1);
  }

  /**
   Rows appended by the course-marks pass are not in the table it looks items
   up in: an item repeated in one run after missing is appended a second time,
   even when the first appended row carries its course id and term (an item
   whose course id is empty).
   */
  lemma RepeatedMissAppendsTwice(stored: Store, f: FullItem)
    requires Keyed(stored, |stored|, Column(CourseId))
    requires forall j | 0 <= j < |stored| :: !Exact(stored[j], f)
    requires f.courseName != ""
    ensures Check(Some(stored), [f, f], []).Success?
    ensures
      var o := Check(Some(stored), [f, f], []).value;
      && |o.store| == |stored| + 2
      && o.store[..|stored|] == stored
      && o.store[|stored|] == o.store[|stored| + 1] == SetRecord([], f).record
      && o.changed == [|stored|, |stored| + 1]
      && (f.courseId == "" ==> Exact(o.store[|stored|], f))
  {
    var next, last := CheckFullTwo(stored, f, f);
    TwoMisses(stored, IndexBy(stored, Column(CourseId)), f, next, last);
    var row := SetRecord([], f).record;
    assert last.store[..|stored|] == stored;
    assert Get(row, Column(CourseId)) == "";
  }

  /** The run state after the same missing item is placed twice. */
  lemma TwoMisses(stored: Store, idx: Index, f: FullItem, next: Run, last: Run)
    requires forall j | 0 <= j < |stored| :: !Exact(stored[j], f)
    requires f.courseName != ""
    requires IndexOf(idx, stored, |stored|, Column(CourseId))
    requires TableReadable(stored, idx)
    requires next == Place(Run(stored, []), ExactMatch(stored, idx, f), f)
    requires Phase1Ready(next, idx, |stored|)
    requires TableReadable(next.store, idx)
    requires last == Place(next, ExactMatch(next.store, idx, f), f)
    ensures last.store == stored + [SetRecord([], f).record, SetRecord([], f).record]
    ensures last.changed == [|stored|, |stored| + 1]
  {
    MissOnce(Run(stored, []), idx, |stored|, f);
    MissOnce(next, idx, |stored|, f);
  }

  /** An item with no exact row among the tabled ones is appended and reported. */
  lemma MissOnce(run: Run, idx: Index, n: nat, f: FullItem)
    requires Valid(run) && IndexOf(idx, run.store, n, Column(CourseId))
    requires forall j | 0 <= j < n :: !Exact(run.store[j], f)
    requires f.courseName != ""
    ensures TableReadable(run.store, idx)
    ensures Place(run, ExactMatch(run.store, idx, f), f)
      == Run(run.store + [SetRecord([], f).record], run.changed + [|run.store|])
    ensures forall j | 0 <= j < n :: !Exact(Place(run, ExactMatch(run.store, idx, f), f).store[j], f)
  {
    ExactMatchIsFirst(run.store, idx, n, f);
    AppendedRow(run, f);
    var r := Place(run, None, f);
    forall j | 0 <= j < n
      ensures !Exact(r.store[j], f)
    {
      assert r.store[j] == run.store[j];
    }
  }

  /**
   Two course-marks items with the same course id and term both merge into
   the same row, and when each changes it the row is reported twice.
   */
  lemma SameRowReportedTwice(stored: Store, f: FullItem, g: FullItem, i: nat)
    requires Keyed(stored, |stored|, Column(CourseId))
    requires FirstExactAt(stored, |stored|, f, i)
    requires g.courseId == f.courseId && g.term == f.term
    requires !Agrees(stored[i], f) && !Agrees(SetRecord(stored[i], f).record, g)
    ensures Check(Some(stored), [f, g], []).Success?
    ensures
      var o := Check(Some(stored), [f, g], []).value;
      && o.store == stored[i := SetRecord(SetRecord(stored[i], f).record, g).record]
      && o.changed == [i, i]
      && o.notified.Some? && |o.notified.value| == 2
  {
    var next, last := CheckFullTwo(stored, f, g);
    TwoHits(stored, IndexBy(stored, Column(CourseId)), f, g, i, next, last);
  }

  /** The run state after two items with the same course id and term are placed. */
  lemma TwoHits(stored: Store, idx: Index, f: FullItem, g: FullItem, i: nat, next: Run, last: Run)
    requires FirstExactAt(stored, |stored|, f, i)
    requires g.courseId == f.courseId && g.term == f.term
    requires !Agrees(stored[i], f) && !Agrees(SetRecord(stored[i], f).record, g)
    requires IndexOf(idx, stored, |stored|, Column(CourseId))
    requires TableReadable(stored, idx)
    requires next == Place(Run(stored, []), ExactMatch(stored, idx, f), f)
    requires IndexOf(idx, next.store, |stored|, Column(CourseId))
    requires TableReadable(next.store, idx)
    requires last == Place(next, ExactMatch(next.store, idx, g), g)
    ensures last.store == stored[i := SetRecord(SetRecord(stored[i], f).record, g).record]
    ensures last.changed == [i, i]
  {
    FirstHit(stored, idx, f, g, i);
    SecondHit(stored, idx, g, i, SetRecord(stored[i], f).record);
  }

  /** The first item merges into row i, reported, and leaves row i first for the second. */
  lemma FirstHit(stored: Store, idx: Index, f: FullItem, g: FullItem, i: nat)
    requires FirstExactAt(stored, |stored|, f, i)
    requires g.courseId == f.courseId && g.term == f.term
    requires !Agrees(stored[i], f)
    requires IndexOf(idx, stored, |stored|, Column(CourseId))
    ensures TableReadable(stored, idx)
    ensures Place(Run(stored, []), ExactMatch(stored, idx, f), f) == Run(stored[i := SetRecord(stored[i], f).record], [i])
    ensures FirstExactAt(stored[i := SetRecord(stored[i], f).record], |stored|, g, i)
  {
    HitOnce(Run(stored, []), idx, |stored|, f, i);
    SameKeysStayFirst(stored, f, g, i);
  }

  /** The second item merges into the same row and reports it again. */
  lemma SecondHit(stored: Store, idx: Index, g: FullItem, i: nat, merged: Record)
    requires i < |stored|
    requires FirstExactAt(stored[i := merged], |stored|, g, i)
    requires !Agrees(merged, g)
    requires IndexOf(idx, stored[i := merged], |stored|, Column(CourseId))
    ensures TableReadable(stored[i := merged], idx)
    ensures var run := Run(stored[i := merged], [i]);
      Place(run, ExactMatch(run.store, idx, g), g) == Run(stored[i := SetRecord(merged, g).record], [i, i])
  {
    var run := Run(stored[i := merged], [i]);
    HitOnce(run, idx, |stored|, g, i);
    assert stored[i := merged][i := SetRecord(merged, g).record] == stored[i := SetRecord(merged, g).record];
  }

  /** After the merge of f, row i is still the first exact row for an item with f's course id and term. */
  lemma SameKeysStayFirst(stored: Store, f: FullItem, g: FullItem, i: nat)
    requires FirstExactAt(stored, |stored|, f, i)
    requires g.courseId == f.courseId && g.term == f.term
    ensures FirstExactAt(stored[i := SetRecord(stored[i], f).record], |stored|, g, i)
  {
    var t := stored[i := SetRecord(stored[i], f).record];
    assert Exact(t[i], g);
    assert forall j | 0 <= j < i :: t[j] == stored[j];
  }

  /** An item whose first exact row is i merges into row i, reported when the merge changes it. */
  lemma HitOnce(run: Run, idx: Index, n: nat, f: FullItem, i: nat)
    requires IndexOf(idx, run.store, n, Column(CourseId))
    requires FirstExactAt(run.store, n, f, i)
    ensures TableReadable(run.store, idx)
    ensures Place(run, ExactMatch(run.store, idx, f), f) == Put(run, i, SetRecord(run.store[i], f))
  {
    ExactMatchIsFirst(run.store, idx, n, f);
    FirstExactUnique(run.store, n, f, i, ExactMatch(run.store, idx, f).value);
  }

  // ---------------------------------------------------------------------------
  // A mid score arriving for a stored course
  // ---------------------------------------------------------------------------

  const Algebra: Record := ["1", "Algebra", "C1", "3", "", "", ""]
  const AlgebraMark: FullItem := Full("1", "C1", "Algebra", "3", "", "8.0", "")
  const AlgebraMarked: Record := ["1", "Algebra", "C1", "3", "8.0", "", ""]

  /**
   A mid score arriving for a stored course: the row takes the score, it is
   the one changed row, the sheet is written and the notification carries the
   row with its new mid score.
   */
  lemma MidScoreArrives()
    ensures Check(Some([Algebra]), [AlgebraMark], []) ==
      Success(Outcome([AlgebraMarked], [0], Some([AlgebraMarked]), Some([ToItem(AlgebraMarked)])))
    ensures ToItem(AlgebraMarked)[MidScore] == "8.0"
  {
    AlgebraIsFirst(AlgebraMark);
    ExactHitMerges([Algebra], AlgebraMark, 0);
    AlgebraPlaced();
    ChangedRowFinish(AlgebraMarked);
    MidScoreShown();
  }

  lemma AlgebraPlaced()
    ensures Place(Run([Algebra], []), Some(0), AlgebraMark) == Run([AlgebraMarked], [0])
  {
    AlgebraMerge();
    assert [Algebra][0 := AlgebraMarked] == [AlgebraMarked];
  }

  /** A one-row sheet whose row changed is written whole and notified as that row read back. */
  lemma ChangedRowFinish(row: Record)
    ensures Valid(Run([row], [0]))
    ensures Finish(Run([row], [0])) == Outcome([row], [0], Some([row]), Some([ToItem(row)]))
  {
    assert Views([row], [0]) == [ToItem(row)];
  }

  lemma MidScoreShown()
    ensures ToItem(AlgebraMarked)[MidScore] == "8.0"
  {
    assert Get(AlgebraMarked, Column(MidScore)) == "8.0";
  }

  lemma AlgebraIsFirst(f: FullItem)
    requires f.courseId == "C1" && f.term == "1"
    ensures FirstExactAt([Algebra], 1, f, 0)
  {
    assert Exact(Algebra, f);
  }

  lemma AlgebraMerge()
    ensures SetRecord(Algebra, AlgebraMark) == Merge(AlgebraMarked, true)
  {
    assert Differs(Algebra, AlgebraMark, MidScore);
    assert Fill(Algebra, AlgebraMark) == AlgebraMarked;
  }

  /** The same item over a row that already holds its values: nothing changes, nothing is written. */
  lemma IdenticalItemIsQuiet()
    ensures Check(Some([Algebra]), [Full("1", "C1", "Algebra", "3", "", "", "")], [])
      == Success(Outcome([Algebra], [], None, None))
  {
    var f: FullItem := Full("1", "C1", "Algebra", "3", "", "", "");
    AlgebraIsFirst(f);
    ExactHitMerges([Algebra], f, 0);
    AlgebraRemerge();
    assert [Algebra][0 := Algebra] == [Algebra];
  }

  lemma AlgebraRemerge()
    ensures SetRecord(Algebra, Full("1", "C1", "Algebra", "3", "", "", "")) == Merge(Algebra, false)
  {
    var f: FullItem := Full("1", "C1", "Algebra", "3", "", "", "");
    assert Fill(Algebra, f) == Algebra;
  }
}

=== FILE: seen_items.dfy ===
/**
 The new-post check of hieutv.py: the ids of the posts seen last time are read
 from the stored document, every scraped post whose id is not among them is
 new, the ids of all scraped posts replace the stored list, and a
 notification goes out only when some post is new.
 */
module SeenItems {
  import opened Results

  /** A scraped syllabus post. */
  datatype Post = Post(id: string, header: string, url: string)

  /** The stored document; `items` is None when the document has no such field. */
  datatype Document = Document(items: Option<seq<string>>)

  datatype Error = DocumentMissing

  /** What a run persists and what it notifies, if anything. */
  datatype Outcome = Outcome(persisted: seq<string>, notified: Option<seq<Post>>)

  /**
   The ids seen last time: a missing document is an error, a document without
   an `items` field has seen nothing.
   */
  function StoredIds(doc: Option<Document>): (r: Result<seq<string>, Error>)
    ensures r.Failure? <==> doc.None?
    ensures r.Success? ==> r.value == doc.value.items.GetOr([])
  {
    match doc
    case None => Failure(DocumentMissing)
    case Some(d) => Success(d.items.GetOr([]))
  }

  /** The scraped posts whose id was not seen, in scrape order. */
  function NewItems(seen: seq<string>, scraped: seq<Post>): (r: seq<Post>)
    ensures |r| <= |scraped|
    ensures forall k | 0 <= k < |r| :: r[k] in scraped && r[k].id !in seen
    ensures forall k | 0 <= k < |scraped| && scraped[k].id !in seen :: scraped[k] in r
    decreases |scraped|
  {
    if |scraped| == 0 then []
    else
      var rest := NewItems(seen, scraped[1..]);
      assert forall k | 0 <= k < |rest| :: rest[k] in scraped by {
        forall k | 0 <= k < |rest|
          ensures rest[k] in scraped
        {
          var j :| 0 <= j < |scraped[1..]| && scraped[1..][j] == rest[k];
          assert scraped[j + 1] == rest[k];
        }
      }
      forall k | 1 <= k < |scraped| && scraped[k].id !in seen
        ensures scraped[k] in rest
      {
        assert scraped[1..][k - 1] == scraped[k];
      }
      if scraped[0].id in seen then rest else [scraped[0]] + rest
  }

  /** The ids of the scraped posts, in scrape order. */
  function Ids(scraped: seq<Post>): (ids: seq<string>)
    ensures |ids| == |scraped|
    ensures forall k | 0 <= k < |scraped| :: ids[k] == scraped[k].id
  {
    seq(|scraped|, k requires 0 <= k < |scraped| => scraped[k].id)
  }

  /**
   One run: read the seen ids, persist the ids of everything scraped, and
   notify with the new posts when there is at least one.
   */
  function Check(doc: Option<Document>, scraped: seq<Post>): (r: Result<Outcome, Error>)
    ensures r.Failure? <==> doc.None?
    ensures r.Success? ==> r.value.persisted == Ids(scraped)
    ensures r.Success? ==>
      var seen := doc.value.items.GetOr([]);
      && (r.value.notified.Some? <==> exists k | 0 <= k < |scraped| :: scraped[k].id !in seen)
      && (r.value.notified.Some? ==> r.value.notified.value == NewItems(seen, scraped))
  {
    match StoredIds(doc)
    case Failure(e) => Failure(e)
    case Success(seen) =>
      var found := NewItems(seen, scraped);
      if |found| > 0 then
        var k :| 0 <= k < |scraped| && scraped[k] == found[0];
        assert scraped[k].id !in seen;
        Success(Outcome(Ids(scraped), Some(found)))
      else
        assert forall k | 0 <= k < |scraped| :: scraped[k].id in seen;
        Success(Outcome(Ids(scraped), None))
  }

  /** s is obtained from t by deleting elements. */
  ghost predicate Subsequence<T>(s: seq<T>, t: seq<T>)
    decreases |t|
  {
    if |s| == 0 then true
    else if |t| == 0 then false
    else (s[0] == t[0] && Subsequence(s[1..], t[1..])) || Subsequence(s, t[1..])
  }

  /** The new posts keep the scrape order: they are a subsequence of what was scraped. */
  lemma {:induction false} NewItemsInOrder(seen: seq<string>, scraped: seq<Post>)
    ensures Subsequence(NewItems(seen, scraped), scraped)
    decreases |scraped|
  {
    if |scraped| > 0 {
      NewItemsInOrder(seen, scraped[1..]);
      var r := NewItems(seen, scraped);
      if scraped[0].id !in seen {
        assert r[1..] == NewItems(seen, scraped[1..]);
      }
    }
  }

  /** Filtering a concatenation filters each part. */
  lemma {:induction false} NewItemsAppend(seen: seq<string>, a: seq<Post>, b: seq<Post>)
    ensures NewItems(seen, a + b) == NewItems(seen, a) + NewItems(seen, b)
    decreases |a|
  {
    if |a| > 0 {
      assert (a + b)[1..] == a[1..] + b;
      NewItemsAppend(seen, a[1..], b);
    } else {
      assert a + b == b;
    }
  }

  /** Nothing is new to a list that holds every scraped id. */
  lemma {:induction false} NothingNewToSeen(seen: seq<string>, scraped: seq<Post>)
    requires forall k | 0 <= k < |scraped| :: scraped[k].id in seen
    ensures NewItems(seen, scraped) == []
    decreases |scraped|
  {
    if |scraped| > 0 {
      NothingNewToSeen(seen, scraped[1..]);
    }
  }

  /** Everything is new to an empty list. */
  lemma {:induction false} AllNewToNothing(scraped: seq<Post>)
    ensures NewItems([], scraped) == scraped
    decreases |scraped|
  {
    if |scraped| > 0 {
      AllNewToNothing(scraped[1..]);
    }
  }

  /**
   Running again with the same scrape over the ids a run persisted finds
   nothing new: it persists the same list and sends nothing.
   */
  lemma RerunFindsNothing(doc: Document, scraped: seq<Post>)
    ensures Check(Some(doc), scraped).Success?
    ensures
      var again := Check(Some(Document(Some(Check(Some(doc), scraped).value.persisted))), scraped);
      again == Success(Outcome(Ids(scraped), None))
  {
    var ids := Ids(scraped);
    assert forall k | 0 <= k < |scraped| :: scraped[k].id in ids by {
      forall k | 0 <= k < |scraped|
        ensures scraped[k].id in ids
      {
        assert ids[k] == scraped[k].id;
      }
    }
    NothingNewToSeen(ids, scraped);
  }

  /**
   A document without an `items` field has seen nothing: every scraped post is
   new, and the notification carries all of them whenever there is one.
   */
  lemma MissingFieldMeansAllNew(scraped: seq<Post>)
    requires |scraped| > 0
    ensures Check(Some(Document(None)), scraped) == Success(Outcome(Ids(scraped), Some(scraped)))
  {
    AllNewToNothing(scraped);
  }
}
